=== FILE: README.md ===
# Runic: a verified model of the match-3 engine

Runic is a match-3 puzzle on a 6 x 6 board of runes. A rune has one of five
elemental types (Fire, Water, Wood, Earth, Lightning) and a level from 1
(Drop) to 5 (Blade). The player can do three things. They can drag a rune onto
an orthogonal neighbour to swap the two. They can drag an edge rune into one of
the void slots around the board to discard it. They can reshuffle the board.
After a swap or a discard the board resolves, in cycles:

1. Gravity drops the runes of every column to the bottom and spawns fresh
   level-1 runes on top.
2. Every horizontal and vertical run of three or more equal runes (same type,
   same level) is found.
3. Each run merges. Its two end cells empty and its middle cells become runes
   one level higher. The run scores its level's points for each of its cells.

The cycles repeat until a cycle finds no run. A final cleanup then lowers the
runes' animation flags.

The model is organised as follows:

- `types.dfy` (`Types`) and `constants.dfy` (`Constants`) hold the data model:
  runes, cells, boards, clusters, the board size, the rune pool and the score
  table.
- `grid.dfy` (`Grid`) holds coordinates, adjacency and board-shape predicates.
- `spawn.dfy` (`Spawn`) covers rune generation and the initial board.
  `Math.random()` becomes an oracle `rand: nat -> Unit` read at a draw cursor.
  `crypto.randomUUID()` becomes a counter of fresh natural-number ids.
- `matching.dfy` (`Matching`) is the run scan. It is a method with loops,
  proved equal to a declarative list of all maximal runs, which in turn is
  proved sound, complete and ordered.
- `gravity.dfy` (`Gravity`) is the gravity step. It works column by column in
  place on an array and is proved equal to a per-cell function of the old board.
- `merging.dfy` (`Merging`) is the merge step, in place on an array, with its
  score.
- `shuffle.dfy` (`Shuffle`) is the reshuffle: an in-place Fisher–Yates
  shuffle followed by a top-up with fresh runes.
- `engine.dfy` (`GameLogic`) is the game hook as a class `Engine`. Its fields
  are the board, the score, the move count, the processing flag, the next fresh
  id and the next random draw. Its methods are the player's actions and the
  resolution loop. The methods that resolve the board (`ResolveBoard`,
  `HandleInteraction`, `DiscardTimeout`) are proved against the function
  `Resolve`, whose properties are proved as lemmas. The others are proved
  against the board edits they make (`Discarded`, `Reshuffled`,
  `CreateInitialGrid`).
- `gameboard.dfy` (`GameBoard`) holds the board component's drag-and-drop
  decisions: which void slot a dragged rune snaps to, which slots are valid,
  and what releasing a drag does.

## Model

| member | source | states |
|---|---|---|
| Constants.ScoreTable | constants.tsx:84-90 | a rune of level L is worth L points, between 1 and 5 |
| Constants.ScoreTableIncreasing | constants.tsx:84-90 | higher levels are worth strictly more points |
| Constants.RuneTypesListEachTypeOnce | constants.tsx:8-14 | the spawn pool lists each of the five rune types exactly once |
| Grid.IndexOfCoordinates | hooks/useGameLogic.ts:14-21 | cell i sits at column i mod 6, row i div 6, and those coordinates give back i |
| Grid.IsAdjacent | components/GameBoard.tsx:86-90 | two adjacent cells are distinct and share a row or a column |
| Grid.AdjacentIndices | components/GameBoard.tsx:86-90 | two cells are adjacent (Manhattan distance 1) iff one is the next cell in the same row or directly below the other |
| Grid.AdjacentSymmetric | hooks/useGameLogic.ts:255-261 | adjacency does not depend on the order of the two cells |
| Grid.AdjacentIrreflexive | hooks/useGameLogic.ts:255-261 | no cell is adjacent to itself, so a drop on the dragged cell never swaps |
| Grid.RunesFresh | hooks/useGameLogic.ts:157 | the runes read off a row of cells with distinct ids below the counter still have distinct ids below the counter |
| Grid.GetRuneAt | hooks/useGameLogic.ts:38-41 | on a well-shaped board, reading the index of (x, y) gives the rune of the cell positioned at (x, y), and an index past the last row reads as no rune |
| Spawn.Pick | hooks/useGameLogic.ts:7-12 | the floor of r * n for r in [0, 1) is a valid index below n |
| Spawn.PickIsFloor | hooks/useGameLogic.ts:7-12 | the chosen index is the integer part of r * n |
| Spawn.GenerateRandomRune | hooks/useGameLogic.ts:7-12 | a new rune has the given id, level 1, a type from the pool, and is flagged new and not merged |
| Spawn.Spawned | hooks/useGameLogic.ts:154-158 | n spawned runes are n level-1 new runes with consecutive ids, each from its own random draw |
| Spawn.CreateInitialGrid | hooks/useGameLogic.ts:14-21 | the initial board has 36 well-placed cells, each holding a new level-1 rune, none deleted, with rune ids that are pairwise distinct and taken from the counter's next 36 values |
| Spawn.EveryTypeDrawn | hooks/useGameLogic.ts:7-12 | every type of the pool is the one drawn for some random number, so no type is unreachable |
| Matching.FindMatches | hooks/useGameLogic.ts:34-125 | the scan returns exactly the list of all maximal runs (rows first, then columns), each a well-formed cluster of at least three equal runes |
| Matching.ScanLine | hooks/useGameLogic.ts:44-83 | scanning one row or column yields exactly that line's maximal runs, in order |
| Matching.ScanLines | hooks/useGameLogic.ts:86-122 | scanning every line in one direction yields the lines' runs concatenated in line order |
| Matching.AllRunsSound | hooks/useGameLogic.ts:34-125 | every reported cluster is a maximal run of three or more cells holding runes of the cluster's type and level, in ascending cell order |
| Matching.AllRunsComplete | hooks/useGameLogic.ts:34-125 | every maximal run of three or more on the board is reported |
| Matching.AllRunsAscending | hooks/useGameLogic.ts:34-125 | clusters come out in scan order (rows top to bottom, then columns left to right), so none is reported twice |
| Matching.CrossingRunsSeparate | hooks/useGameLogic.ts:34-125 | a horizontal run and a vertical run that cross are both reported, as two separate clusters (no flood fill joins them) |
| Matching.AllRunsByValue | hooks/useGameLogic.ts:34-125 | runs depend only on each rune's type and level, not on ids or animation flags |
| Gravity.ApplyGravity | hooks/useGameLogic.ts:137-179 | the gravity pass yields the per-cell settled board, and spawns exactly as many runes as there were empty cells |
| Gravity.SettleColumn | hooks/useGameLogic.ts:140-172 | settling one column in place makes that column settled and leaves the rest as it was |
| Gravity.CollectColumn | hooks/useGameLogic.ts:142-148 | the runes collected from a column are its non-empty cells from top to bottom |
| Gravity.NewRunes | hooks/useGameLogic.ts:154-158 | the new runes for a column are the runes spawned from the given id and draw |
| Gravity.ColumnContents | hooks/useGameLogic.ts:151-161 | a column's final contents are its new runes on top of its old runes, and the empty count is the column's number of empty cells |
| Gravity.WriteColumn | hooks/useGameLogic.ts:164-172 | writing the final column back changes exactly the cells of that column and keeps their ids and positions |
| Gravity.GravityFills | hooks/useGameLogic.ts:137-179 | after gravity every cell holds a rune, and ids, positions and deletion marks are unchanged |
| Gravity.ColumnSettles | hooks/useGameLogic.ts:151-172 | a column after gravity reads as the fresh runes followed by its old runes in their old order, the old runes resting at the bottom |
| Gravity.OldRunesAtBottom | hooks/useGameLogic.ts:161-172 | the k-th old rune of a column lands k cells below the column's number of empty cells |
| Gravity.NewRunesAreFresh | hooks/useGameLogic.ts:154-158 | the cells above the old runes hold new level-1 runes whose ids are in the block this column claims from the counter |
| Gravity.OffsetMonotone | hooks/useGameLogic.ts:154-158 | ids claimed by earlier columns never exceed those claimed by later ones |
| Gravity.GravityKeepsIdsFresh | hooks/useGameLogic.ts:154-172 | after gravity the board's rune ids are still pairwise distinct, and below the counter advanced by the runes spawned |
| Gravity.SettledIdsDiffer | hooks/useGameLogic.ts:154-172 | two different cells hold runes with different ids after gravity: new runes take distinct ids above every old id, and old runes keep theirs |
| Gravity.FullBoardUnchanged | hooks/useGameLogic.ts:137-179 | gravity leaves a full board exactly as it is and spawns nothing |
| Merging.ProcessMerges | hooks/useGameLogic.ts:193-229 | merging the clusters in list order gives the merged board and the total score, and takes one fresh id per upgraded rune |
| Merging.MergeStep | hooks/useGameLogic.ts:197-229 | one pass of the cluster loop writes exactly the merge of cluster n to the board, advances the id counter by that cluster's upgrades, and leaves the rest of the round to the later clusters |
| Merging.AddClusterScore | hooks/useGameLogic.ts:205-206 | one pass of the cluster loop adds that cluster's level points times its size |
| Merging.MergeOne | hooks/useGameLogic.ts:211-226 | merging a cluster in place changes the array exactly as the merge of that one cluster does |
| Merging.NextLevel | hooks/useGameLogic.ts:204 | a merge raises the level by one, and Blade stays Blade |
| Merging.MergeCluster | hooks/useGameLogic.ts:198-226 | merging one cluster changes only the runes of the cluster's own cells; every other cell, and every cell's id, position and mark, is kept |
| Merging.UpgradeUpToEffect | hooks/useGameLogic.ts:211-221 | the k-th middle cell gets a merged rune of the cluster's type at the next level, with the k-th fresh id |
| Merging.MergeClusterEffect | hooks/useGameLogic.ts:201-226 | after a merge both end cells are empty and every middle cell holds an upgraded, just-merged rune |
| Merging.MergeClusterOutcome | hooks/useGameLogic.ts:201-226 | a merge keeps every cell's id and position, and each cell is unchanged, emptied or given a just-merged rune with an id from this merge's block |
| Merging.MergeFromKeepsUntouched | hooks/useGameLogic.ts:197-229 | a cell that no cluster of the round names comes through the round exactly as it was |
| Merging.MergeFromOutcome | hooks/useGameLogic.ts:197-229 | the same holds for merging all clusters in turn, with ids from the whole block the merges claimed |
| Merging.MergeFromKeepsCells | hooks/useGameLogic.ts:197-229 | a round of merges keeps every cell's id, position and deletion mark |
| Merging.MergeFromCell | hooks/useGameLogic.ts:197-229 | each cell comes through a round of merges kept, emptied, or holding an upgrade whose id lies in the block the round claimed |
| Merging.MergeClusterKeepsIdsFresh | hooks/useGameLogic.ts:211-221 | merging one cluster keeps rune ids pairwise distinct, below the counter advanced by that cluster's upgrades |
| Merging.MergeFromKeepsIdsFresh | hooks/useGameLogic.ts:197-229 | a whole round of merges keeps rune ids pairwise distinct, below the counter advanced by all the round's upgrades |
| Merging.ScoreBounds | hooks/useGameLogic.ts:205-228 | the merges score at least three points per cluster, and score something iff there is a cluster |
| Shuffle.ReshuffleBoard | hooks/useGameLogic.ts:300-324 | the reshuffle yields the reshuffled board, draws one number per shuffle pass and one per fresh rune, and spawns one rune per empty cell |
| Shuffle.FisherYates | hooks/useGameLogic.ts:310-313 | the in-place loop from the last position down to 1 gives the Fisher–Yates shuffle of the runes |
| Shuffle.ShufflePass | hooks/useGameLogic.ts:311-312 | one pass exchanges position i with the position its draw picks from 0 to i, and moves nothing else |
| Shuffle.FillGaps | hooks/useGameLogic.ts:316-319 | the runes are topped up with fresh runes until there is one per cell |
| Shuffle.ShuffledPermutes | hooks/useGameLogic.ts:310-313 | the shuffle keeps the multiset of runes: it only permutes them |
| Shuffle.LaidPermutes | hooks/useGameLogic.ts:305-319 | the runes laid out are the board's runes, permuted, plus the fresh ones |
| Shuffle.ReshuffledRunes | hooks/useGameLogic.ts:321-324 | the reshuffled board keeps every cell, is full, and holds the laid-out runes in cell order |
| Shuffle.ReshufflePermutesFullBoard | hooks/useGameLogic.ts:300-324 | on a full board a reshuffle spawns nothing and only permutes the runes |
| Shuffle.LaidKeepsIdsFresh | hooks/useGameLogic.ts:305-319 | the runes laid out by a reshuffle have pairwise distinct ids, below the counter advanced by the runes topped up |
| Shuffle.ReshuffleKeepsIdsFresh | hooks/useGameLogic.ts:300-324 | the reshuffled board's rune ids are pairwise distinct and below the advanced counter |
| Shuffle.SpawnedExtends | hooks/useGameLogic.ts:316-319 | one more spawn appends one rune from the next id and draw |
| GameLogic.SwapRunes | hooks/useGameLogic.ts:266-269 | a swap exchanges the two cells' runes, keeps all cell ids and positions, and changes no other cell |
| GameLogic.SwapInvolution | hooks/useGameLogic.ts:266-269 | swapping twice restores the board, and the order of the two cells does not matter |
| GameLogic.SwapPermutesContents | hooks/useGameLogic.ts:266-269 | a swap keeps the multiset of the board's contents |
| GameLogic.Discarded | hooks/useGameLogic.ts:284-288 | the discard's first phase empties the cell and marks it deleted, keeping its id and position and every other cell |
| GameLogic.ClearDeleted | hooks/useGameLogic.ts:294 | the timer's cleanup keeps every cell's id, position and contents and leaves no cell marked deleted |
| GameLogic.DiscardThenClear | hooks/useGameLogic.ts:284-297 | both phases of a discard together empty exactly the one cell, keep all other runes and leave no deletion mark |
| GameLogic.Cleaned | hooks/useGameLogic.ts:240-245 | the exit cleanup keeps every cell's id, position and mark and every rune's presence, id, type and level, and leaves no rune flagged new or just merged |
| GameLogic.CleanedKeepsBoard | hooks/useGameLogic.ts:240-246 | the cleanup keeps a full board full and does not change its runs |
| GameLogic.CleanupKeepsRest | hooks/useGameLogic.ts:240-246 | the cleanup of a board at rest leaves it full, without runs, and calm |
| GameLogic.StepKeepsCells | hooks/useGameLogic.ts:137-229 | a cycle keeps every cell's id, position and deletion mark |
| GameLogic.StepSettles | hooks/useGameLogic.ts:182-187 | a cycle that finds no run leaves the board full and without any run |
| GameLogic.StepScores | hooks/useGameLogic.ts:193-231 | a cycle scores iff it finds a run, and then at least three points per cluster |
| GameLogic.MergedNoMatch | hooks/useGameLogic.ts:182-187 | with no run, the merge round changes nothing, scores nothing and reports the board at rest |
| GameLogic.ResolutionKeepsCells | hooks/useGameLogic.ts:135-236 | resolution changes only runes: ids, positions and deletion marks stay |
| GameLogic.ResolutionSettles | hooks/useGameLogic.ts:135-236 | when resolution reports the board at rest it is full and holds no run of three, and the score never decreases |
| GameLogic.ResolveKeepsBoard | hooks/useGameLogic.ts:127-250 | a whole resolution keeps the cells, never lowers the score, leaves a full board without runs when it ends at rest, and keeps rune ids pairwise distinct below the advanced counter |
| GameLogic.ResolutionKeepsIdsFresh | hooks/useGameLogic.ts:135-236 | every cycle of the resolution keeps rune ids pairwise distinct and below the counter, which only advances |
| GameLogic.StepKeepsIdsFresh | hooks/useGameLogic.ts:137-229 | one cycle keeps rune ids pairwise distinct: spawned runes and upgrades take ids the counter had not handed out |
| GameLogic.MergedKeepsIdsFresh | hooks/useGameLogic.ts:182-229 | the scan and merge part of a cycle keeps rune ids pairwise distinct below the advanced counter |
| GameLogic.SwapKeepsIdsFresh | hooks/useGameLogic.ts:266-269 | a swap keeps rune ids pairwise distinct and below the counter |
| GameLogic.DiscardKeepsIdsFresh | hooks/useGameLogic.ts:284-288 | a discard keeps rune ids pairwise distinct and below the counter |
| GameLogic.ClearDeletedKeepsIdsFresh | hooks/useGameLogic.ts:294 | clearing the deletion marks keeps rune ids pairwise distinct and below the counter |
| GameLogic.CleanedKeepsIdsFresh | hooks/useGameLogic.ts:240-245 | the exit cleanup keeps rune ids pairwise distinct and below the counter |
| GameLogic.SettledBoardUnchanged | hooks/useGameLogic.ts:135-187 | a full board without runs is left exactly as it is: nothing spawns, nothing scores, and the loop stops after one cycle |
| GameLogic.RunCycle | hooks/useGameLogic.ts:137-229 | one loop body computes the cycle function: gravity, scan and merges |
| GameLogic.MergeMatches | hooks/useGameLogic.ts:182-229 | the scan and merge part of a cycle computes the merge round of the settled board |
| GameLogic.ResolveLoop | hooks/useGameLogic.ts:135-236 | the do-while loop computes the resolution of the start board |
| GameLogic.Engine.constructor | hooks/useGameLogic.ts:24-29 | a new game starts on a fresh initial board with score 0, no moves and nothing processing, and the invariant holds: 36 well-placed cells whose rune ids are pairwise distinct and below the counter |
| GameLogic.Engine.ResolveBoard | hooks/useGameLogic.ts:127-250 | the state becomes the resolution of the start board; the score never decreases; a board that came to rest is full, has no runs and is calm, and processing ends |
| GameLogic.Engine.HandleInteraction | hooks/useGameLogic.ts:252-273 | while processing, or for non-adjacent cells, nothing changes; otherwise one move is counted and the swapped board is resolved |
| GameLogic.Engine.HandleDiscard | hooks/useGameLogic.ts:275-291 | while processing nothing changes; otherwise one move is counted and the cell is emptied and marked, with the marked board handed to the timer |
| GameLogic.Engine.DiscardTimeout | hooks/useGameLogic.ts:293-297 | when the timer fires, the marks are cleared and that board is resolved |
| GameLogic.Engine.ReshuffleBoard | hooks/useGameLogic.ts:300-331 | while processing nothing changes; otherwise the board becomes the reshuffled board, with score and moves unchanged, and the counters advance by the draws and spawns used |
| GameLogic.Engine.ResetGame | hooks/useGameLogic.ts:334-340 | while processing nothing changes; otherwise a fresh initial board is dealt and score and moves return to 0 |
| GameBoard.AutoDiscardZone | components/GameBoard.tsx:93-124 | a dragged cell snaps to a slot iff it lies on the board's edge |
| GameBoard.IsValidDiscardZone | components/GameBoard.tsx:127-137 | only an edge cell has a valid slot, and a valid top or bottom slot is one of the visible slots 1 to 6 |
| GameBoard.AutoZoneIsValid | components/GameBoard.tsx:93-137 | every slot a cell snaps to is one the validity check accepts |
| GameBoard.ValidZonesListed | components/GameBoard.tsx:127-137 | the validity check accepts exactly the slots beside the cell |
| GameBoard.ZoneCount | components/GameBoard.tsx:127-137 | a corner has two slots, another edge cell one and an interior cell none; they are distinct and numbered within the visible ring |
| GameBoard.InteriorHasNoZone | components/GameBoard.tsx:93-137 | an interior cell can neither snap to nor be dropped on any slot |
| GameBoard.EdgeIgnoresDirection | components/GameBoard.tsx:116-121 | an edge cell that is not a corner snaps to its one slot whichever way it is dragged |
| GameBoard.CornerChoosesByDirection | components/GameBoard.tsx:97-114 | a corner snaps to its side slot iff dragged mostly sideways outwards, and to its top or bottom slot otherwise |
| GameBoard.ActiveVoid | components/GameBoard.tsx:150-195 | the highlighted slot is always a valid slot of an edge cell |
| GameBoard.DragEnd | components/GameBoard.tsx:198-209 | releasing discards iff a slot is highlighted, and otherwise swaps iff it was dropped on an adjacent cell |
| GameBoard.DragOnlyDiscardsEdges | components/GameBoard.tsx:150-209 | through the interface only edge cells are discarded and only neighbours are swapped |

## Left out

- Sound (`playSound`) and the `hasHighLevelUpgrade` flag that only chooses which sound plays: they have no effect on the game state.
- React rendering and UI state (selection, drag overlay, theme, leaderboard): only the decisions of the drag handlers are modelled.
- The `delay` pauses and asynchronous interleaving. `ResolveBoard` is one atomic step. The per-cycle `setGrid` and `setScore` renders are not modelled separately; only the final state is.
- GameLogic.Engine.HandleDiscard: the 300 ms timer is not a clock here. `HandleDiscard` returns the marked board and `DiscardTimeout` takes it as an argument. A caller may run other actions in between, as the source allows because the processing flag stays down; `DiscardTimeout` then resolves that stale board, as the source's timer resolves the board it captured. One difference follows from the aliasing noted under `GameLogic.SwapRunes`: a swap made inside the 300 ms window writes into cell objects shared with the captured board, so the source's timer resolves a board that includes that swap, while `DiscardTimeout` resolves the marked board without it.
- GameLogic.Engine.ReshuffleBoard: the source resolves the new board after a 400 ms timer, with the processing flag down in between. The model returns that board for a later `ResolveBoard` call; other actions may run before it, and `ResolveBoard` then resolves the returned board. As with the discard, a swap inside the 400 ms window reaches the source's captured board through the shared cell objects, but not the board the model returns.
- The `gravityApplied` flag: it is always true once the loop runs, so it is left out.
- `crypto.randomUUID()` ids are string UUIDs in the source, unique with overwhelming probability. Here they are natural numbers from a counter, and uniqueness is proved: `Engine.Valid()` states that the board's rune ids are pairwise distinct and below the counter, and every action keeps it.
- GameLogic.Engine.DiscardTimeout: it requires the board it resolves to have pairwise distinct rune ids below the counter. Every board `HandleDiscard` returns satisfies this, and it stays true when other actions run before the timer fires, because the counter only grows.
- GameLogic.Engine.ResolveBoard: it requires the same of its start board. The swapped board of `HandleInteraction`, the cleaned board of `DiscardTimeout` and the board `ReshuffleBoard` returns all satisfy it.
- `Math.random()` is the oracle `rand` read at the `draws` cursor. The distribution of the shuffle is not modelled, only the permutation it performs.
- GameLogic.Engine.ResolveBoard: the do-while loop runs for at most `fuel + 1` cycles. If the fuel runs out first, processing stays raised and nothing is claimed about the board coming to rest. Termination of the source loop on every board is not proved.
- GameLogic.Engine.HandleDiscard: it requires the id to be on the board. The source would write past the end of its board copy for a larger id, but the board component only ever passes the id of a cell it shows, so the requires excludes nothing the interface can do.
- GameLogic.Engine.HandleInteraction: it requires the two ids to be on the board when they are adjacent. The source would dereference a missing cell and fail there.
- GameLogic.SwapRunes: the source mutates the shared cell objects of the current board in place. The model swaps on values, so the aliasing of the old board's cells is not captured.
- The numeric sort of each cluster's indices (hooks/useGameLogic.ts:198) is not performed. `Matching.AllRunsSound` proves every cluster is already in ascending order, so the sort is the identity.
- A merged rune has no `isNew` field in the source. It is modelled as `isNew == false`.
- Void slot ids are strings such as `top-3` in the source. They are modelled as the `Zone` datatype (side and slot number), and drag deltas as reals.
- The match scan finds straight runs only, although the comment at hooks/useGameLogic.ts:32 speaks of a flood fill; the model follows the scan as written.
- `LV5_BONUS_SCORE` (constants.tsx:92) is declared but never awarded, and a level-5 merge has no special effect.
- No rune statistics are kept: App.tsx:10 reads a `runeStats` from the hook, but the hook (hooks/useGameLogic.ts:342-350) neither computes nor returns one.
- A discard checks neither that the cell is on the edge nor that it holds a rune (hooks/useGameLogic.ts:275-288); only the board component restricts it to edge cells.
- A reshuffle is not counted as a move (hooks/useGameLogic.ts:300-331).
- Shuffle.ReshufflePermutesFullBoard: the pure-permutation statement is proved for full boards only. For boards with gaps, `Shuffle.LaidPermutes` states the runes plus the fresh ones.

=== FILE: constants.dfy ===
/** The game's rule constants: board side, rune pool and scoring. */
module Constants {
  import opened Types

  /** Side length of the square board. */
  const GRID_SIZE: nat := 6

  /** Number of cells on the board; cell ids run from 0 to 35. */
  const CELLS: nat := GRID_SIZE * GRID_SIZE

  /** The pool new runes are drawn from. */
  const RUNE_TYPES: seq<RuneType> := [Fire, Water, Wood, Earth, Lightning]

  /** Base points per matched rune of a level (the score table). */
  function ScoreTable(level: RuneLevel): (points: nat)
    ensures points == level
    ensures 0 < points <= 5
  {
    match level
    case 1 => 1
    case 2 => 2
    case 3 => 3
    case 4 => 4
    case 5 => 5
  }

  /** The level-5 bonus; declared by the game but never awarded by the engine. */
  const LV5_BONUS_SCORE: nat := 10

  lemma RuneTypesListEachTypeOnce()
    ensures |RUNE_TYPES| == 5
    ensures forall t: RuneType :: t in RUNE_TYPES
    ensures forall i, j :: 0 <= i < j < |RUNE_TYPES| ==> RUNE_TYPES[i] != RUNE_TYPES[j]
  {
    forall t: RuneType ensures t in RUNE_TYPES {
      match t
      case Fire => assert RUNE_TYPES[0] == t;
      case Water => assert RUNE_TYPES[1] == t;
      case Wood => assert RUNE_TYPES[2] == t;
      case Earth => assert RUNE_TYPES[3] == t;
      case Lightning => assert RUNE_TYPES[4] == t;
    }
  }

  lemma ScoreTableIncreasing(a: RuneLevel, b: RuneLevel)
    requires a < b
    ensures 0 < ScoreTable(a) < ScoreTable(b)
  {
  }
}

=== FILE: engine.dfy ===
/**
 * The game engine: the board-resolution loop (gravity, match detection,
 * merging, cleanup) and the player's actions (swap, discard, reshuffle,
 * reset), gated by the `processing` flag that the resolution loop holds.
 */
module GameLogic {
  import opened Types
  import opened Constants
  import opened Grid
  import opened Spawn
  import opened Matching
  import opened Gravity
  import opened Merging
  import opened Shuffle

  // ---------------------------------------------------------------------------
  // Board edits made by the player's actions

  /** The board with the runes of cells `a` and `b` exchanged (a swap). */
  function SwapRunes(g: GridState, a: nat, b: nat): (h: GridState)
    requires a < |g| && b < |g|
    ensures SameCells(g, h)
    ensures h[a].rune == g[b].rune && h[b].rune == g[a].rune
    ensures forall i :: 0 <= i < |g| && i != a && i != b ==> h[i] == g[i]
  {
    g[a := g[a].(rune := g[b].rune)][b := g[b].(rune := g[a].rune)]
  }

  /** Cell `i` emptied and marked deleted (the discard's first phase). */
  function Discarded(g: GridState, i: nat): (h: GridState)
    requires i < |g|
    ensures |h| == |g| && h[i].rune == None && h[i].isDeleted
    ensures h[i].id == g[i].id && h[i].x == g[i].x && h[i].y == g[i].y
    ensures forall j :: 0 <= j < |g| && j != i ==> h[j] == g[j]
  {
    g[i := g[i].(rune := None, isDeleted := true)]
  }

  /**
   * Every deletion mark cleared (the discard's second phase): the cells keep
   * their ids, positions and contents, and none is left marked.
   */
  function ClearDeleted(g: GridState): (h: GridState)
    ensures |h| == |g| && Contents(h) == Contents(g)
    ensures forall i :: 0 <= i < |g| ==>
      h[i].id == g[i].id && h[i].x == g[i].x && h[i].y == g[i].y && !h[i].isDeleted
  {
    seq(|g|, i requires 0 <= i < |g| => g[i].(isDeleted := false))
  }

  /** A rune with both animation flags lowered. */
  function Settle(r: Option<Rune>): Option<Rune> {
    if r.Some? then Some(r.value.(justMerged := false, isNew := false)) else None
  }

  /**
   * The cleanup after resolution: every cell keeps its rune (id, type and
   * level), and no rune is left flagged as new or just merged.
   */
  function Cleaned(g: GridState): (h: GridState)
    ensures SameCells(g, h) && SameValues(g, h) && Calm(h)
    ensures forall i :: 0 <= i < |g| ==>
      (h[i].rune.Some? <==> g[i].rune.Some?) && (g[i].rune.Some? ==> h[i].rune.value.id == g[i].rune.value.id)
  {
    seq(|g|, i requires 0 <= i < |g| => g[i].(rune := Settle(g[i].rune)))
  }

  /** No rune on the board carries an animation flag. */
  ghost predicate Calm(g: GridState) {
    forall i :: 0 <= i < |g| && g[i].rune.Some? ==> !g[i].rune.value.isNew && !g[i].rune.value.justMerged
  }

  // ---------------------------------------------------------------------------
  // Board resolution, as a function of the board and the random sources

  /**
   * The outcome of one or more resolution cycles: the board, the points, the
   * next fresh id and the next random draw, and whether the board came to
   * rest (the last cycle found no match).
   */
  datatype Round = Round(grid: GridState, points: nat, nextId: nat, draws: nat, stable: bool)

  /**
   * Match detection and merging on a board gravity has settled: every match
   * merged in list order, upgrades taking ids from `id`; `d` is the next draw.
   */
  function Merged(settled: GridState, id: nat, d: nat): (s: Round)
    ensures |s.grid| == |settled|
  {
    var clusters := AllRuns(settled);
    Round(MergeFrom(settled, clusters, 0, id), ScoreFrom(clusters, 0),
      id + UpgradesFrom(clusters, 0), d, clusters == [])
  }

  /**
   * One cycle of the loop: gravity, with one fresh rune per empty cell (ids
   * and draws from `id` and `d`); then match detection and merging, the
   * upgrades taking the ids after the spawned runes'. `points` is what the
   * cycle's merges score.
   */
  function Step(g: GridState, rand: nat -> Unit, id: nat, d: nat): (s: Round)
    requires |g| == CELLS
    ensures |s.grid| == CELLS
  {
    var spawned := Offset(g, GRID_SIZE);
    Merged(AfterGravity(g, rand, id, d), Advance(id, spawned), Advance(d, spawned))
  }

  /**
   * The rest of the resolution loop from one of its states: board `g`, next
   * id and draw, the score so far, whether the last cycle found no match, and
   * how many more cycles may run. Cycles run until one finds no match; each
   * adds its points to the score.
   */
  function Resolution(g: GridState, rand: nat -> Unit, id: nat, d: nat, score: nat, stable: bool, left: nat): (r: Round)
    requires |g| == CELLS
    ensures |r.grid| == CELLS
    decreases left, 1
  {
    if stable || left == 0 then Round(g, score, id, d, stable) else Cycle(g, rand, id, d, score, left)
  }

  /** One more cycle of the loop, then the rest of the loop from the state it leaves. */
  function Cycle(g: GridState, rand: nat -> Unit, id: nat, d: nat, score: nat, left: nat): (r: Round)
    requires |g| == CELLS && left > 0
    ensures |r.grid| == CELLS
    decreases left, 0
  {
    var s := Step(g, rand, id, d);
    Resolution(s.grid, rand, s.nextId, s.draws, Advance(score, s.points), s.stable, Fewer(left))
  }

  /** The cycles left after one more ran. */
  function Fewer(left: nat): nat
    requires left > 0
  {
    left - 1
  }

  /** The board shown once a resolution ends: cleaned up if it came to rest. */
  function Shown(r: Round): (g: GridState)
    ensures r.stable ==> g == Cleaned(r.grid)
    ensures !r.stable ==> g == r.grid
  {
    if r.stable then Cleaned(r.grid) else r.grid
  }

  /**
   * A whole resolution of `g` from `score`: at least one cycle (the hook's
   * loop tests its exit condition at the end of a cycle) and at most `fuel + 1`.
   */
  function Resolve(g: GridState, rand: nat -> Unit, id: nat, d: nat, score: nat, fuel: nat): (r: Round)
    requires |g| == CELLS
    ensures |r.grid| == CELLS
  {
    Resolution(g, rand, id, d, score, false, fuel + 1)
  }

  // ---------------------------------------------------------------------------
  // The engine

  class Engine {
    /** The board shown to the player. */
    var grid: GridState
    var score: nat
    var moves: nat
    /** Set while a resolution runs; every player action is ignored meanwhile. */
    var processing: bool
    /** The next fresh rune id (stands for `crypto.randomUUID()`). */
    var nextId: nat
    /** The index of the next value `Math.random()` returns. */
    var draws: nat
    /** The values `Math.random()` returns, in order. */
    const rand: nat -> Unit

    /**
     * The board always has its 36 cells, each at its own position, and its
     * runes carry distinct ids, all taken from the counter before `nextId`.
     */
    ghost predicate Valid()
      reads this
    {
      WellShaped(grid) && FreshIds(grid, nextId)
    }

    /**
     * The fields show the outcome `r` of a resolution: the board as the last
     * cycle left it (cleaned up if it came to rest), its score, the next id
     * and draw, and the gate still closed unless the board came to rest.
     */
    ghost predicate Shows(r: Round)
      reads this
    {
      grid == Shown(r) && score == r.points && nextId == r.nextId && draws == r.draws &&
      processing == !r.stable
    }

    /** The fields after resolving `g` from the given score, id and draw. */
    ghost predicate ResolvedFrom(g: GridState, score0: nat, id0: nat, d0: nat, fuel: nat)
      requires |g| == CELLS
      reads this
    {
      Shows(Resolve(g, rand, id0, d0, score0, fuel))
    }

    /** A new game: a fresh board of level-1 runes, no score, no moves. */
    constructor (rand: nat -> Unit)
      ensures Valid()
      ensures this.rand == rand && grid == CreateInitialGrid(rand, 0, 0)
      ensures score == 0 && moves == 0 && !processing
      ensures nextId == CELLS && draws == CELLS
    {
      this.rand := rand;
      grid := CreateInitialGrid(rand, 0, 0);
      score := 0;
      moves := 0;
      processing := false;
      nextId := CELLS;
      draws := CELLS;
    }

    /**
     * resolveBoard: cycles until the board settles (or the fuel is spent),
     * publishing the board and the score after every cycle; then lowers every
     * animation flag and releases the gate.
     */
    method ResolveBoard(startGrid: GridState, fuel: nat)
      requires WellShaped(startGrid) && FreshIds(startGrid, nextId)
      modifies this
      ensures Valid()
      ensures ResolvedFrom(startGrid, old(score), old(nextId), old(draws), fuel)
      ensures score >= old(score) && moves == old(moves)
      ensures !processing ==> Full(grid) && AllRuns(grid) == [] && Calm(grid)
    {
      var id0, d0, score0 := nextId, draws, score;
      processing := true;
      var r := ResolveLoop(startGrid, rand, id0, d0, score0, fuel);
      ResolveKeepsBoard(startGrid, rand, id0, d0, score0, fuel);
      SameCellsKeepShape(startGrid, r.grid);
      grid, score, nextId, draws := r.grid, r.points, r.nextId, r.draws;
      if r.stable {
        CleanupKeepsRest(r.grid);
        CleanedKeepsIdsFresh(r.grid, r.nextId);
        grid, processing := Cleaned(r.grid), false;
      }
      assert Shows(r);
    }

    /**
     * handleInteraction: ignored while a resolution runs, or when the two
     * cells are not orthogonal neighbours; otherwise one move is counted, the
     * two runes are exchanged and the board is resolved.
     */
    method HandleInteraction(fromId: nat, toId: nat, fuel: nat)
      requires Valid()
      requires !processing && IsAdjacent(fromId, toId) ==> fromId < CELLS && toId < CELLS
      modifies this
      ensures Valid()
      ensures old(processing) || !IsAdjacent(fromId, toId) ==> unchanged(this)
      ensures !old(processing) && IsAdjacent(fromId, toId) ==>
        moves == old(moves) + 1 &&
        ResolvedFrom(SwapRunes(old(grid), fromId, toId), old(score), old(nextId), old(draws), fuel)
    {
      if processing {
        return;
      }
      if !IsAdjacent(fromId, toId) {
        return;
      }
      moves := moves + 1;
      var newGrid := SwapRunes(grid, fromId, toId);
      SameCellsKeepShape(grid, newGrid);
      SwapKeepsIdsFresh(grid, fromId, toId, nextId);
      grid := newGrid;
      ResolveBoard(newGrid, fuel);
    }

    /**
     * handleDiscard: ignored while a resolution runs; otherwise one move is
     * counted and the cell is emptied and marked deleted. Returns the board
     * the delayed second phase (`DiscardTimeout`) is to resolve.
     */
    method HandleDiscard(fromId: nat) returns (pending: Option<GridState>)
      requires Valid()
      requires !processing ==> fromId < CELLS
      modifies this
      ensures Valid()
      ensures old(processing) ==> unchanged(this) && pending == None
      ensures !old(processing) ==>
        grid == Discarded(old(grid), fromId) && pending == Some(grid) && moves == old(moves) + 1 &&
        score == old(score) && nextId == old(nextId) && draws == old(draws) && !processing
    {
      if processing {
        return None;
      }
      moves := moves + 1;
      var newGrid := Discarded(grid, fromId);
      DiscardKeepsIdsFresh(grid, fromId, nextId);
      grid := newGrid;
      pending := Some(newGrid);
    }

    /**
     * The discard's delayed second phase: the deletion marks of the pending
     * board are cleared and that board is resolved. It is not gated.
     */
    method DiscardTimeout(pending: GridState, fuel: nat)
      requires WellShaped(pending) && FreshIds(pending, nextId)
      modifies this
      ensures Valid()
      ensures ResolvedFrom(ClearDeleted(pending), old(score), old(nextId), old(draws), fuel)
      ensures moves == old(moves)
    {
      var cleaned := ClearDeleted(pending);
      ClearDeletedKeepsIdsFresh(pending, nextId);
      grid := cleaned;
      ResolveBoard(cleaned, fuel);
    }

    /**
     * reshuffleBoard: ignored while a resolution runs; otherwise the board's
     * runes are shuffled (and any empty cell refilled) in place of the old
     * ones, without counting a move. Returns the board the delayed resolution
     * (`ResolveBoard`) is to run on.
     */
    method ReshuffleBoard() returns (pending: Option<GridState>)
      requires Valid()
      modifies this
      ensures Valid()
      ensures old(processing) ==> unchanged(this) && pending == None
      ensures !old(processing) ==>
        grid == Reshuffled(old(grid), rand, old(nextId), old(draws)) && pending == Some(grid) &&
        nextId == old(nextId) + Gaps(old(grid)) &&
        draws == old(draws) + ShuffleDraws(|BoardRunes(old(grid))|) + Gaps(old(grid)) &&
        score == old(score) && moves == old(moves) && !processing
    {
      if processing {
        return None;
      }
      var newGrid, used, spawned := Shuffle.ReshuffleBoard(grid, rand, nextId, draws);
      ReshuffledRunes(grid, rand, nextId, draws);
      SameCellsKeepShape(grid, newGrid);
      ReshuffleKeepsIdsFresh(grid, rand, nextId, draws);
      nextId, draws := nextId + spawned, draws + used;
      grid := newGrid;
      pending := Some(newGrid);
    }

    /** resetGame: ignored while a resolution runs; otherwise a fresh board, no score, no moves. */
    method ResetGame()
      requires Valid()
      modifies this
      ensures Valid()
      ensures old(processing) ==> unchanged(this)
      ensures !old(processing) ==>
        grid == CreateInitialGrid(rand, old(nextId), old(draws)) && score == 0 && moves == 0 &&
        nextId == old(nextId) + CELLS && draws == old(draws) + CELLS && !processing
    {
      if processing {
        return;
      }
      score := 0;
      moves := 0;
      grid := CreateInitialGrid(rand, nextId, draws);
      nextId, draws := nextId + CELLS, draws + CELLS;
    }
  }

  /**
   * One cycle of the loop: gravity, then match detection and the merges.
   * Returns the board the cycle leaves, its points, the next id and draw,
   * and whether it found no match.
   */
  method RunCycle(activeGrid: GridState, rand: nat -> Unit, id: nat, d: nat) returns (s: Round)
    requires |activeGrid| == CELLS
    ensures s == Step(activeGrid, rand, id, d)
  {
    var afterGravity, spawned := ApplyGravity(activeGrid, rand, id, d);
    StepIsMerged(activeGrid, rand, id, d, afterGravity, spawned);
    s := MergeMatches(afterGravity, Advance(id, spawned), Advance(d, spawned));
  }

  /** Match detection and the merges of one cycle, on the board gravity settled. */
  method MergeMatches(afterGravity: GridState, id: nat, d: nat) returns (s: Round)
    ensures s == Merged(afterGravity, id, d)
  {
    var clusters := FindMatches(afterGravity);
    if |clusters| == 0 {
      return Round(afterGravity, 0, id, d, true);
    }
    AllRunsFit(afterGravity);
    var merged, gainedScore, id' := ProcessMerges(afterGravity, clusters, id);
    return Round(merged, gainedScore, id', d, false);
  }

  /**
   * The loop of resolveBoard: cycles from `startGrid` until one finds no
   * match, at most `fuel + 1` times, adding each cycle's points to `score0`.
   */
  method ResolveLoop(startGrid: GridState, rand: nat -> Unit, id0: nat, d0: nat, score0: nat, fuel: nat)
    returns (r: Round)
    requires |startGrid| == CELLS
    ensures r == Resolve(startGrid, rand, id0, d0, score0, fuel)
  {
    ghost var total := Resolve(startGrid, rand, id0, d0, score0, fuel);
    var activeGrid, id, d, score := startGrid, id0, d0, score0;
    var stable := false;
    var left: nat := fuel + 1;
    while !stable && left > 0
      invariant |activeGrid| == CELLS
      invariant total == Resolution(activeGrid, rand, id, d, score, stable, left)
      decreases left
    {
      var s := RunCycle(activeGrid, rand, id, d);
      ResolutionStep(activeGrid, rand, id, d, score, stable, left, s);
      left := Fewer(left);
      activeGrid, stable := s.grid, s.stable;
      score, id, d := Advance(score, s.points), s.nextId, s.draws;
    }
    r := Round(activeGrid, score, id, d, stable);
  }

  // ---------------------------------------------------------------------------
  // Properties

  /** Swapping twice restores the board, and the order of the two cells does not matter. */
  lemma SwapInvolution(g: GridState, a: nat, b: nat)
    requires a < |g| && b < |g|
    ensures SwapRunes(SwapRunes(g, a, b), a, b) == g
    ensures SwapRunes(g, a, b) == SwapRunes(g, b, a)
  {
    var h := SwapRunes(SwapRunes(g, a, b), a, b);
    assert forall i :: 0 <= i < |g| ==> h[i] == g[i];
    var k := SwapRunes(g, b, a);
    assert forall i :: 0 <= i < |g| ==> k[i] == SwapRunes(g, a, b)[i];
  }

  /** A swap only moves runes: the board holds the same runes, as often as before. */
  lemma SwapPermutesContents(g: GridState, a: nat, b: nat)
    requires a < |g| && b < |g|
    ensures multiset(Contents(SwapRunes(g, a, b))) == multiset(Contents(g))
  {
    var c := Contents(g);
    var h := Contents(SwapRunes(g, a, b));
    assert h == c[a := c[b]][b := c[a]];
  }

  /**
   * The two phases of a discard together empty exactly cell `i`: every other
   * cell keeps its rune, and no cell is left marked deleted.
   */
  lemma DiscardThenClear(g: GridState, i: nat)
    requires WellShaped(g) && i < |g|
    ensures var h := ClearDeleted(Discarded(g, i));
      WellShaped(h) && h[i].rune == None &&
      (forall j :: 0 <= j < |g| && j != i ==> h[j].rune == g[j].rune) &&
      (forall j :: 0 <= j < |g| ==> !h[j].isDeleted)
  {
  }

  /** The cleanup of a board at rest leaves it well shaped, at rest and calm. */
  lemma CleanupKeepsRest(g: GridState)
    requires WellShaped(g) && Full(g) && AllRuns(g) == []
    ensures var h := Cleaned(g); WellShaped(h) && Full(h) && AllRuns(h) == [] && Calm(h)
  {
    CleanedKeepsBoard(g);
    SameCellsKeepShape(g, Cleaned(g));
  }

  /** Every cluster the scan reports can be merged, and has at least three cells. */
  lemma AllRunsFit(g: GridState)
    ensures AllFit(AllRuns(g), |g|)
    ensures forall n :: 0 <= n < |AllRuns(g)| ==> |AllRuns(g)[n].indices| >= MIN_RUN
  {
    AllRunsSound(g);
    forall n | 0 <= n < |AllRuns(g)|
      ensures Fits(AllRuns(g)[n], |g|) && |AllRuns(g)[n].indices| >= MIN_RUN
    {
      assert AllRuns(g)[n] in AllRuns(g);
    }
  }

  /** A cycle is the merging round on the board gravity settled. */
  lemma StepIsMerged(g: GridState, rand: nat -> Unit, id: nat, d: nat, settled: GridState, spawned: nat)
    requires |g| == CELLS
    requires settled == AfterGravity(g, rand, id, d) && spawned == Offset(g, GRID_SIZE)
    ensures Step(g, rand, id, d) == Merged(settled, Advance(id, spawned), Advance(d, spawned))
  {
  }

  /** The loop runs one more cycle while the last one found a match and cycles are left. */
  lemma ResolutionStep(g: GridState, rand: nat -> Unit, id: nat, d: nat, score: nat, stable: bool, left: nat, s: Round)
    requires |g| == CELLS && !stable && left > 0 && s == Step(g, rand, id, d)
    ensures Resolution(g, rand, id, d, score, stable, left) ==
      Resolution(s.grid, rand, s.nextId, s.draws, Advance(score, s.points), s.stable, Fewer(left))
  {
  }

  /** Resolution changes only runes: every cell keeps its id, position and deletion mark. */
  lemma {:induction false} ResolutionKeepsCells(g: GridState, rand: nat -> Unit, id: nat, d: nat, score: nat, stable: bool, left: nat)
    requires |g| == CELLS
    ensures SameCells(g, Resolution(g, rand, id, d, score, stable, left).grid)
    decreases left
  {
    if !stable && left > 0 {
      var s := Step(g, rand, id, d);
      ResolutionStep(g, rand, id, d, score, stable, left, s);
      StepKeepsCells(g, rand, id, d);
      ResolutionKeepsCells(s.grid, rand, s.nextId, s.draws, Advance(score, s.points), s.stable, Fewer(left));
      SameCellsTransitive(g, s.grid, Resolution(g, rand, id, d, score, stable, left).grid);
    }
  }

  /**
   * When resolution reports the board at rest, it is full and holds no run
   * of three; and the score never decreases.
   */
  lemma {:induction false} ResolutionSettles(g: GridState, rand: nat -> Unit, id: nat, d: nat, score: nat, stable: bool, left: nat)
    requires |g| == CELLS
    requires stable ==> Full(g) && AllRuns(g) == []
    ensures var r := Resolution(g, rand, id, d, score, stable, left);
      (r.stable ==> Full(r.grid) && AllRuns(r.grid) == []) && r.points >= score
    decreases left
  {
    if stable || left == 0 {
      assert Resolution(g, rand, id, d, score, stable, left) == Round(g, score, id, d, stable);
    } else {
      var s := Step(g, rand, id, d);
      ResolutionStep(g, rand, id, d, score, stable, left, s);
      StepSettles(g, rand, id, d);
      ResolutionSettles(s.grid, rand, s.nextId, s.draws, Advance(score, s.points), s.stable, Fewer(left));
    }
  }

  /**
   * A whole resolution keeps every cell's id, position and deletion mark,
   * never lowers the score, and leaves a full board without runs when it
   * reports the board at rest.
   */
  lemma ResolveKeepsBoard(g: GridState, rand: nat -> Unit, id: nat, d: nat, score: nat, fuel: nat)
    requires |g| == CELLS
    ensures var r := Resolve(g, rand, id, d, score, fuel);
      SameCells(g, r.grid) && r.points >= score && (r.stable ==> Full(r.grid) && AllRuns(r.grid) == [])
    ensures var r := Resolve(g, rand, id, d, score, fuel);
      FreshIds(g, id) ==> FreshIds(r.grid, r.nextId)
  {
    ResolutionKeepsCells(g, rand, id, d, score, false, fuel + 1);
    ResolutionSettles(g, rand, id, d, score, false, fuel + 1);
    if FreshIds(g, id) {
      ResolutionKeepsIdsFresh(g, rand, id, d, score, false, fuel + 1);
    }
  }

  /** Resolution keeps rune ids unique: every id on the board stays below the advanced counter. */
  lemma {:induction false} ResolutionKeepsIdsFresh(g: GridState, rand: nat -> Unit, id: nat, d: nat, score: nat, stable: bool, left: nat)
    requires |g| == CELLS && FreshIds(g, id)
    ensures var r := Resolution(g, rand, id, d, score, stable, left); FreshIds(r.grid, r.nextId)
    decreases left
  {
    if stable || left == 0 {
      assert Resolution(g, rand, id, d, score, stable, left) == Round(g, score, id, d, stable);
    } else {
      var s := Step(g, rand, id, d);
      ResolutionStep(g, rand, id, d, score, stable, left, s);
      StepKeepsIdsFresh(g, rand, id, d);
      ResolutionKeepsIdsFresh(s.grid, rand, s.nextId, s.draws, Advance(score, s.points), s.stable, Fewer(left));
    }
  }

  /**
   * A cycle keeps rune ids unique: the runes gravity spawns and the upgrades
   * the merges write take ids the counter has not handed out yet.
   */
  lemma StepKeepsIdsFresh(g: GridState, rand: nat -> Unit, id: nat, d: nat)
    requires |g| == CELLS && FreshIds(g, id)
    ensures FreshIds(Step(g, rand, id, d).grid, Step(g, rand, id, d).nextId)
  {
    var settled := AfterGravity(g, rand, id, d);
    var spawned := Offset(g, GRID_SIZE);
    assert FreshIds(settled, Advance(id, spawned)) by {
      GravityKeepsIdsFresh(g, rand, id, d);
    }
    MergedKeepsIdsFresh(settled, Advance(id, spawned), Advance(d, spawned));
    StepIsMerged(g, rand, id, d, settled, spawned);
  }

  /** Merging keeps rune ids unique: each upgrade takes an id after the counter. */
  lemma MergedKeepsIdsFresh(settled: GridState, id: nat, d: nat)
    requires FreshIds(settled, id)
    ensures FreshIds(Merged(settled, id, d).grid, Merged(settled, id, d).nextId)
  {
    AllRunsFit(settled);
    MergeFromKeepsIdsFresh(settled, AllRuns(settled), 0, id);
  }

  /** A swap moves runes between cells and so keeps their ids unique. */
  lemma SwapKeepsIdsFresh(g: GridState, a: nat, b: nat, next: nat)
    requires a < |g| && b < |g| && FreshIds(g, next)
    ensures FreshIds(SwapRunes(g, a, b), next)
  {
    var h := SwapRunes(g, a, b);
    forall i | 0 <= i < |g|
      ensures h[i].rune == g[if i == a then b else if i == b then a else i].rune
    {
    }
  }

  /** A discard only removes a rune, so rune ids stay unique. */
  lemma DiscardKeepsIdsFresh(g: GridState, i: nat, next: nat)
    requires i < |g| && FreshIds(g, next)
    ensures FreshIds(Discarded(g, i), next)
  {
  }

  /** Clearing the deleted marks keeps every rune, so rune ids stay unique. */
  lemma ClearDeletedKeepsIdsFresh(g: GridState, next: nat)
    requires FreshIds(g, next)
    ensures FreshIds(ClearDeleted(g), next)
  {
    var h := ClearDeleted(g);
    assert forall k :: 0 <= k < |g| ==> h[k].rune == Contents(h)[k] == Contents(g)[k] == g[k].rune;
  }

  /** The cleanup keeps every rune's id, so the ids stay unique. */
  lemma CleanedKeepsIdsFresh(g: GridState, next: nat)
    requires FreshIds(g, next)
    ensures FreshIds(Cleaned(g), next)
  {
  }

  /**
   * A board that is full and holds no run of three is left exactly as it is:
   * the first cycle spawns nothing, finds no match, scores nothing and stops.
   */
  lemma SettledBoardUnchanged(g: GridState, rand: nat -> Unit, id: nat, d: nat, score: nat, left: nat)
    requires |g| == CELLS && Full(g) && AllRuns(g) == [] && left > 0
    ensures Resolution(g, rand, id, d, score, false, left) == Round(g, score, id, d, true)
  {
    FullBoardUnchanged(g, rand, id, d);
    var s := Step(g, rand, id, d);
    StepIsMerged(g, rand, id, d, g, 0);
    assert Advance(id, 0) == id && Advance(d, 0) == d;
    MergedNoMatch(g, id, d);
    assert s == Round(g, 0, id, d, true);
    ResolutionStep(g, rand, id, d, score, false, left, s);
  }

  /** Without a match, the merging round leaves the board as it is and scores nothing. */
  lemma MergedNoMatch(settled: GridState, id: nat, d: nat)
    requires AllRuns(settled) == []
    ensures Merged(settled, id, d) == Round(settled, 0, id, d, true)
  {
    assert MergeFrom(settled, [], 0, id) == settled;
  }

  /** A cycle changes only runes: every cell keeps its id, position and deletion mark. */
  lemma StepKeepsCells(g: GridState, rand: nat -> Unit, id: nat, d: nat)
    requires |g| == CELLS
    ensures SameCells(g, Step(g, rand, id, d).grid)
  {
    var spawned := Offset(g, GRID_SIZE);
    var settled := AfterGravity(g, rand, id, d);
    GravityFills(g, rand, id, d);
    AllRunsFit(settled);
    MergeFromOutcome(settled, AllRuns(settled), 0, Advance(id, spawned));
    SameCellsTransitive(g, settled, Step(g, rand, id, d).grid);
  }

  /** A cycle that finds no match leaves the board gravity settled: full, and without a run. */
  lemma StepSettles(g: GridState, rand: nat -> Unit, id: nat, d: nat)
    requires |g| == CELLS
    ensures var s := Step(g, rand, id, d);
      s.stable ==> s.grid == AfterGravity(g, rand, id, d) && Full(s.grid) && AllRuns(s.grid) == [] && s.points == 0
  {
    GravityFills(g, rand, id, d);
  }

  /**
   * A cycle scores exactly when it finds a match, and then at least three
   * points per cluster.
   */
  lemma StepScores(g: GridState, rand: nat -> Unit, id: nat, d: nat)
    requires |g| == CELLS
    ensures var s := Step(g, rand, id, d);
      var clusters := AllRuns(AfterGravity(g, rand, id, d));
      (s.points > 0 <==> !s.stable) && s.points >= MIN_RUN * |clusters|
  {
    var settled := AfterGravity(g, rand, id, d);
    AllRunsFit(settled);
    ScoreBounds(AllRuns(settled), 0);
  }

  /** The cleanup keeps a full board full and leaves its runs as they were. */
  lemma CleanedKeepsBoard(g: GridState)
    ensures Full(g) ==> Full(Cleaned(g))
    ensures AllRuns(Cleaned(g)) == AllRuns(g)
  {
    AllRunsByValue(g, Cleaned(g));
  }
}

=== FILE: gameboard.dfy ===
/**
 * The board component's drag-and-drop rules: which void slot around the grid
 * a dragged edge cell may be discarded into, which slot it snaps to when the
 * pointer leaves the grid, and whether releasing the drag discards or swaps.
 *
 * The void slots form a ring around the 6 x 6 grid. The top and bottom rows
 * have GRID_SIZE + 2 slots numbered 0 to 7, of which 0 and 7 are invisible
 * corners, so the slot above or below column x is number x + 1. The left and
 * right columns have one slot per row, numbered by the row.
 */
module GameBoard {
  import opened Types
  import opened Constants
  import opened Grid

  /** The side of the grid a void slot lies on. */
  datatype Side = Top | Bottom | Left | Right

  /** A void slot, named `<side>-<slot>` in the interface. */
  datatype Zone = Zone(side: Side, slot: nat)

  /** How far the pointer moved during the drag, in pixels. */
  datatype Delta = Delta(x: real, y: real)

  function AbsReal(r: real): real {
    if r < 0.0 then -r else r
  }

  /** Cell `i` is a corner of the grid. */
  predicate IsCorner(i: nat) {
    (X(i) == 0 || X(i) == GRID_SIZE - 1) && (Y(i) == 0 || Y(i) == GRID_SIZE - 1)
  }

  /** Cell `i` touches the ring of void slots. */
  predicate OnEdge(i: nat) {
    X(i) == 0 || X(i) == GRID_SIZE - 1 || Y(i) == 0 || Y(i) == GRID_SIZE - 1
  }

  /** The pointer moved mostly sideways, and outwards: to the left if `outwardLeft`, else to the right. */
  predicate Sideways(delta: Delta, outwardLeft: bool) {
    AbsReal(delta.x) > AbsReal(delta.y) && (if outwardLeft then delta.x < 0.0 else delta.x > 0.0)
  }

  /**
   * getAutoDiscardZone: the slot a cell dragged off the grid snaps to. A
   * corner cell chooses between its two slots by the drag's direction; any
   * other edge cell has one slot; an interior cell has none.
   */
  function AutoDiscardZone(dragId: nat, delta: Delta): (z: Option<Zone>)
    ensures z.None? <==> !OnEdge(dragId)
  {
    var x := X(dragId);
    var y := Y(dragId);
    if x == 0 && y == 0 then
      if Sideways(delta, true) then Some(Zone(Left, y)) else Some(Zone(Top, x + 1))
    else if x == GRID_SIZE - 1 && y == 0 then
      if Sideways(delta, false) then Some(Zone(Right, y)) else Some(Zone(Top, x + 1))
    else if x == 0 && y == GRID_SIZE - 1 then
      if Sideways(delta, true) then Some(Zone(Left, y)) else Some(Zone(Bottom, x + 1))
    else if x == GRID_SIZE - 1 && y == GRID_SIZE - 1 then
      if Sideways(delta, false) then Some(Zone(Right, y)) else Some(Zone(Bottom, x + 1))
    else if y == 0 then Some(Zone(Top, x + 1))
    else if y == GRID_SIZE - 1 then Some(Zone(Bottom, x + 1))
    else if x == 0 then Some(Zone(Left, y))
    else if x == GRID_SIZE - 1 then Some(Zone(Right, y))
    else None
  }

  /**
   * isValidDiscardZone: `zone` is one of the slots next to cell `dragId`.
   * Only an edge cell has one, and a top or bottom slot is always a visible one.
   */
  predicate IsValidDiscardZone(dragId: nat, zone: Zone): (valid: bool)
    ensures valid ==> OnEdge(dragId)
    ensures valid && (zone.side == Top || zone.side == Bottom) ==> 1 <= zone.slot <= GRID_SIZE
  {
    var x := X(dragId);
    var y := Y(dragId);
    (y == 0 && zone == Zone(Top, x + 1)) ||
    (y == GRID_SIZE - 1 && zone == Zone(Bottom, x + 1)) ||
    (x == 0 && zone == Zone(Left, y)) ||
    (x == GRID_SIZE - 1 && zone == Zone(Right, y))
  }

  /**
   * The slots next to cell `i`, listed side by side: the one above it if it
   * is in the top row, below it if in the bottom row, and so on.
   */
  function ZonesOf(i: nat): seq<Zone> {
    (if Y(i) == 0 then [Zone(Top, X(i) + 1)] else []) +
    (if Y(i) == GRID_SIZE - 1 then [Zone(Bottom, X(i) + 1)] else []) +
    (if X(i) == 0 then [Zone(Left, Y(i))] else []) +
    (if X(i) == GRID_SIZE - 1 then [Zone(Right, Y(i))] else [])
  }

  // ---------------------------------------------------------------------------
  // Dragging

  /** What the pointer is over: nothing, a void slot, or a grid cell. */
  datatype Over = Outside | OverVoid(zone: Zone) | OverCell(id: nat)

  /**
   * handleDragOver: the void slot highlighted while cell `dragId` is dragged.
   * Off the grid the slot is chosen automatically; over a slot, that slot if
   * it is next to the cell; over a cell, none.
   */
  function ActiveVoid(dragId: nat, delta: Delta, over: Over): (z: Option<Zone>)
    ensures z.Some? ==> IsValidDiscardZone(dragId, z.value) && OnEdge(dragId)
  {
    AutoZoneIsValid(dragId, delta);
    match over
    case Outside => AutoDiscardZone(dragId, delta)
    case OverVoid(zone) => if IsValidDiscardZone(dragId, zone) then Some(zone) else None
    case OverCell(_) => None
  }

  /** What releasing a drag asks the game to do. */
  datatype Action = Discard(cell: nat) | Swap(from: nat, to: nat) | Ignore

  /**
   * handleDragEnd: a highlighted void slot discards the dragged cell;
   * otherwise a drop on an adjacent grid cell swaps the two; anything else
   * does nothing.
   */
  function DragEnd(dragId: nat, activeVoid: Option<Zone>, over: Over): (a: Action)
    ensures a.Discard? <==> activeVoid.Some?
    ensures a.Discard? ==> a.cell == dragId
    ensures a.Swap? <==> activeVoid.None? && over.OverCell? && IsAdjacent(dragId, over.id)
    ensures a.Swap? ==> a.from == dragId && a.to == over.id
  {
    if activeVoid.Some? then Discard(dragId)
    else if over.OverCell? && IsAdjacent(dragId, over.id) then Swap(dragId, over.id)
    else Ignore
  }

  // ---------------------------------------------------------------------------
  // Properties

  /** Whatever slot the cell snaps to is one the validity check accepts. */
  lemma AutoZoneIsValid(dragId: nat, delta: Delta)
    ensures AutoDiscardZone(dragId, delta).Some? ==> IsValidDiscardZone(dragId, AutoDiscardZone(dragId, delta).value)
  {
  }

  /** The validity check accepts exactly the slots listed next to the cell. */
  lemma ValidZonesListed(i: nat, zone: Zone)
    ensures IsValidDiscardZone(i, zone) <==> zone in ZonesOf(i)
  {
  }

  /**
   * A cell of the grid has two slots if it is a corner, one if it is any
   * other edge cell and none inside; the slots are distinct and visible:
   * top and bottom slots are numbered 1 to GRID_SIZE, side slots 0 to
   * GRID_SIZE - 1.
   */
  lemma {:induction false} ZoneCount(i: nat)
    requires i < CELLS
    ensures |ZonesOf(i)| == (if IsCorner(i) then 2 else if OnEdge(i) then 1 else 0)
    ensures forall m, n :: 0 <= m < n < |ZonesOf(i)| ==> ZonesOf(i)[m] != ZonesOf(i)[n]
    ensures forall z :: z in ZonesOf(i) ==>
      if z.side == Top || z.side == Bottom then 1 <= z.slot <= GRID_SIZE else z.slot < GRID_SIZE
  {
    IndexOfCoordinates(i);
  }

  /** An interior cell has no slot: the check refuses every one and nothing snaps. */
  lemma InteriorHasNoZone(i: nat, zone: Zone, delta: Delta)
    requires 0 < X(i) < GRID_SIZE - 1 && 0 < Y(i) < GRID_SIZE - 1
    ensures !IsValidDiscardZone(i, zone) && AutoDiscardZone(i, delta) == None
  {
  }

  /** An edge cell that is not a corner snaps to its one slot, whichever way it is dragged. */
  lemma EdgeIgnoresDirection(i: nat, d1: Delta, d2: Delta)
    requires OnEdge(i) && !IsCorner(i)
    ensures AutoDiscardZone(i, d1) == AutoDiscardZone(i, d2)
    ensures IsValidDiscardZone(i, AutoDiscardZone(i, d1).value)
  {
  }

  /**
   * The top-left corner snaps to the left slot exactly when dragged mostly
   * sideways to the left, and to the top slot otherwise; likewise, mirrored,
   * for the other three corners.
   */
  lemma CornerChoosesByDirection(i: nat, delta: Delta)
    requires i < CELLS && IsCorner(i)
    ensures var z := AutoDiscardZone(i, delta).value;
      var outwardLeft := X(i) == 0;
      var vertical := if Y(i) == 0 then Top else Bottom;
      (z.side == Left || z.side == Right <==> Sideways(delta, outwardLeft)) &&
      (Sideways(delta, outwardLeft) ==> z == Zone(if outwardLeft then Left else Right, Y(i))) &&
      (!Sideways(delta, outwardLeft) ==> z == Zone(vertical, X(i) + 1))
  {
    IndexOfCoordinates(i);
  }

  /**
   * Through the interface, only an edge cell can be discarded, and only a
   * neighbouring cell can be swapped with: the drag ends in a discard only
   * if a slot next to the dragged cell was highlighted.
   */
  lemma DragOnlyDiscardsEdges(dragId: nat, delta: Delta, over: Over, dropOver: Over)
    ensures var a := DragEnd(dragId, ActiveVoid(dragId, delta, over), dropOver);
      (a.Discard? ==> OnEdge(a.cell)) && (a.Swap? ==> IsAdjacent(a.from, a.to))
  {
  }
}

=== FILE: gravity.dfy ===
/**
 * The gravity step of board resolution: in every column the runes that are
 * left fall to the bottom in their original order, and the empty cells left
 * at the top are refilled with freshly generated level-1 runes.
 */
module Gravity {
  import opened Types
  import opened Constants
  import opened Grid
  import opened Spawn

  /** The contents of column `col`, top row first. */
  function Column(g: GridState, col: nat): (s: seq<Option<Rune>>)
    requires |g| == CELLS && col < GRID_SIZE
    ensures |s| == GRID_SIZE
    ensures forall row :: 0 <= row < GRID_SIZE ==> s[row] == g[Index(col, row)].rune
  {
    seq(GRID_SIZE, row requires 0 <= row < GRID_SIZE => g[Index(col, row)].rune)
  }

  /** How many cells of column `col` are empty, hence how many runes it is refilled with. */
  function Missing(g: GridState, col: nat): nat
    requires |g| == CELLS && col < GRID_SIZE
  {
    GRID_SIZE - |Runes(Column(g, col))|
  }

  /** How many runes the columns left of `col` are refilled with. */
  function Offset(g: GridState, col: nat): nat
    requires |g| == CELLS && col <= GRID_SIZE
  {
    if col == 0 then 0 else Offset(g, col - 1) + Missing(g, col - 1)
  }

  /** The runes of column `col` after gravity, top first: new runes above the old ones. */
  function FinalColumn(g: GridState, rand: nat -> Unit, id0: nat, d0: nat, col: nat): (runes: seq<Rune>)
    requires |g| == CELLS && col < GRID_SIZE
    ensures |runes| == GRID_SIZE
  {
    var n := Offset(g, col);
    Spawned(rand, id0 + n, d0 + n, Missing(g, col)) + Runes(Column(g, col))
  }

  /** Cell `i` after one gravity step: same cell, rune taken from its column's final contents. */
  function Settled(g: GridState, rand: nat -> Unit, id0: nat, d0: nat, i: nat): (c: Cell)
    requires |g| == CELLS && i < CELLS
    ensures c.id == g[i].id && c.x == g[i].x && c.y == g[i].y && c.isDeleted == g[i].isDeleted
    ensures c.rune.Some?
  {
    g[i].(rune := Some(FinalColumn(g, rand, id0, d0, X(i))[Y(i)]))
  }

  /**
   * The board after one gravity step. Column by column, the `k`-th new rune
   * of the whole step takes rune id `id0 + k` and random draw `d0 + k`.
   */
  function AfterGravity(g: GridState, rand: nat -> Unit, id0: nat, d0: nat): (h: GridState)
    requires |g| == CELLS
    ensures |h| == CELLS
    ensures forall i :: 0 <= i < CELLS ==> h[i] == Settled(g, rand, id0, d0, i)
  {
    seq(CELLS, i requires 0 <= i < CELLS => Settled(g, rand, id0, d0, i))
  }

  /**
   * The hook's gravity loop: for each column collect its runes top to
   * bottom, generate one new rune per empty cell, and write the new runes
   * followed by the collected ones back into the column.
   */
  method ApplyGravity(g: GridState, rand: nat -> Unit, id0: nat, d0: nat) returns (after: GridState, spawned: nat)
    requires |g| == CELLS
    ensures after == AfterGravity(g, rand, id0, d0)
    ensures spawned == Offset(g, GRID_SIZE)
  {
    var a := new Cell[CELLS](i requires 0 <= i < CELLS => g[i]);
    spawned := 0;
    assert a[..] == g;
    NoneSettled(g, rand, id0, d0);
    for col := 0 to GRID_SIZE
      invariant spawned == Offset(g, col)
      invariant a[..] == SettledLeftOf(g, rand, id0, d0, col)
    {
      var emptyCount := SettleColumn(a, g, rand, id0, d0, col, spawned);
      spawned := spawned + emptyCount;
    }
    after := a[..];
    AllSettled(g, rand, id0, d0);
  }

  /** Before the loop no column has settled. */
  lemma NoneSettled(g: GridState, rand: nat -> Unit, id0: nat, d0: nat)
    requires |g| == CELLS
    ensures SettledLeftOf(g, rand, id0, d0, 0) == g
  {
    forall i | 0 <= i < CELLS ensures SettledLeftOf(g, rand, id0, d0, 0)[i] == g[i] {
      IndexOfCoordinates(i);
    }
  }

  /** After the loop every column has settled. */
  lemma AllSettled(g: GridState, rand: nat -> Unit, id0: nat, d0: nat)
    requires |g| == CELLS
    ensures SettledLeftOf(g, rand, id0, d0, GRID_SIZE) == AfterGravity(g, rand, id0, d0)
  {
    forall i | 0 <= i < CELLS
      ensures SettledLeftOf(g, rand, id0, d0, GRID_SIZE)[i] == AfterGravity(g, rand, id0, d0)[i]
    {
      IndexOfCoordinates(i);
    }
  }

  /** The board part-way through the gravity loop: the columns left of `col` have settled. */
  function SettledLeftOf(g: GridState, rand: nat -> Unit, id0: nat, d0: nat, col: nat): (h: GridState)
    requires |g| == CELLS
    ensures |h| == CELLS
    ensures forall i :: 0 <= i < CELLS ==> h[i] == if X(i) < col then Settled(g, rand, id0, d0, i) else g[i]
  {
    seq(CELLS, i requires 0 <= i < CELLS => if X(i) < col then Settled(g, rand, id0, d0, i) else g[i])
  }

  /** One pass of the gravity loop: column `col` settles, using new runes from `id0 + spawned`. */
  method SettleColumn(a: array<Cell>, g: GridState, rand: nat -> Unit, id0: nat, d0: nat, col: nat, spawned: nat)
    returns (emptyCount: nat)
    requires a.Length == CELLS && |g| == CELLS && col < GRID_SIZE
    requires spawned == Offset(g, col)
    requires a[..] == SettledLeftOf(g, rand, id0, d0, col)
    modifies a
    ensures emptyCount == Missing(g, col)
    ensures a[..] == SettledLeftOf(g, rand, id0, d0, col + 1)
  {
    var finalColumn;
    finalColumn, emptyCount := ColumnContents(g, rand, id0, d0, col, spawned);
    assert forall i :: 0 <= i < CELLS && X(i) == col ==> a[i] == g[i];
    WriteColumn(a, g, rand, id0, d0, col, finalColumn);
    assert forall i :: 0 <= i < CELLS ==> a[i] == SettledLeftOf(g, rand, id0, d0, col + 1)[i];
  }

  /** The new contents of column `col`: its fresh runes, then the runes it already held. */
  method ColumnContents(g: GridState, rand: nat -> Unit, id0: nat, d0: nat, col: nat, spawned: nat)
    returns (finalColumn: seq<Rune>, emptyCount: nat)
    requires |g| == CELLS && col < GRID_SIZE
    requires spawned == Offset(g, col)
    ensures emptyCount == Missing(g, col)
    ensures finalColumn == FinalColumn(g, rand, id0, d0, col)
  {
    var runesInColumn := CollectColumn(g, col);
    emptyCount := GRID_SIZE - |runesInColumn|;
    var newRunes := NewRunes(rand, id0 + spawned, d0 + spawned, emptyCount);
    finalColumn := newRunes + runesInColumn;
    FinalColumnParts(g, rand, id0, d0, col);
  }

  /** Writes the final contents of column `col` into its six cells, top row first. */
  method WriteColumn(a: array<Cell>, g: GridState, rand: nat -> Unit, id0: nat, d0: nat, col: nat, finalColumn: seq<Rune>)
    requires a.Length == CELLS && |g| == CELLS && col < GRID_SIZE
    requires finalColumn == FinalColumn(g, rand, id0, d0, col)
    requires forall i :: 0 <= i < CELLS && X(i) == col ==> a[i] == g[i]
    modifies a
    ensures forall i :: 0 <= i < CELLS ==>
      a[i] == if X(i) == col then Settled(g, rand, id0, d0, i) else old(a[i])
  {
    for row := 0 to GRID_SIZE
      invariant forall i :: 0 <= i < CELLS ==>
        a[i] == if X(i) == col && Y(i) < row then Settled(g, rand, id0, d0, i) else old(a[i])
    {
      var idx := row * GRID_SIZE + col;
      CoordinatesOfIndex(col, row);
      a[idx] := a[idx].(rune := Some(finalColumn[row]));
    }
  }

  /**
   * The runes of column `col`, top to bottom. The hook reads them from the
   * board being rewritten, whose column `col` still holds its old contents.
   */
  method CollectColumn(g: GridState, col: nat) returns (runesInColumn: seq<Rune>)
    requires |g| == CELLS && col < GRID_SIZE
    ensures runesInColumn == Runes(Column(g, col))
  {
    runesInColumn := [];
    for row := 0 to GRID_SIZE
      invariant runesInColumn == Runes(Column(g, col)[..row])
    {
      var idx := row * GRID_SIZE + col;
      assert Column(g, col)[..row + 1][..row] == Column(g, col)[..row];
      if g[idx].rune.Some? {
        runesInColumn := runesInColumn + [g[idx].rune.value];
      }
    }
    assert Column(g, col)[..GRID_SIZE] == Column(g, col);
  }

  /** `n` freshly generated runes, the `k`-th with id `id0 + k` and random draw `d0 + k`. */
  method NewRunes(rand: nat -> Unit, id0: nat, d0: nat, n: nat) returns (runes: seq<Rune>)
    ensures runes == Spawned(rand, id0, d0, n)
  {
    runes := [];
    for k := 0 to n
      invariant runes == Spawned(rand, id0, d0, k)
    {
      runes := runes + [GenerateRandomRune(id0 + k, rand(d0 + k))];
    }
  }

  // ---------------------------------------------------------------------------
  // Properties

  /** Gravity only moves and creates runes, and leaves no cell empty. */
  lemma GravityFills(g: GridState, rand: nat -> Unit, id0: nat, d0: nat)
    requires |g| == CELLS
    ensures SameCells(g, AfterGravity(g, rand, id0, d0)) && Full(AfterGravity(g, rand, id0, d0))
  {
  }

  /** A column read from the board after gravity. */
  lemma ColumnAfter(g: GridState, rand: nat -> Unit, id0: nat, d0: nat, col: nat)
    requires |g| == CELLS && col < GRID_SIZE
    ensures forall row :: 0 <= row < GRID_SIZE ==>
      Column(AfterGravity(g, rand, id0, d0), col)[row] == Some(FinalColumn(g, rand, id0, d0, col)[row])
  {
    forall row | 0 <= row < GRID_SIZE
      ensures Column(AfterGravity(g, rand, id0, d0), col)[row] == Some(FinalColumn(g, rand, id0, d0, col)[row])
    {
      CoordinatesOfIndex(col, row);
    }
  }

  lemma FinalColumnParts(g: GridState, rand: nat -> Unit, id0: nat, d0: nat, col: nat)
    requires |g| == CELLS && col < GRID_SIZE
    ensures var n := Offset(g, col);
      FinalColumn(g, rand, id0, d0, col) ==
        Spawned(rand, id0 + n, d0 + n, Missing(g, col)) + Runes(Column(g, col))
  {
  }

  lemma ColumnRunesAfter(g: GridState, rand: nat -> Unit, id0: nat, d0: nat, col: nat)
    requires |g| == CELLS && col < GRID_SIZE
    ensures Runes(Column(AfterGravity(g, rand, id0, d0), col)) == FinalColumn(g, rand, id0, d0, col)
  {
    ColumnAfter(g, rand, id0, d0, col);
    RunesOfSomes(Column(AfterGravity(g, rand, id0, d0), col), FinalColumn(g, rand, id0, d0, col));
  }

  /** The old runes of a column end up in its bottom cells. */
  lemma OldRunesAtBottom(g: GridState, rand: nat -> Unit, id0: nat, d0: nat, col: nat, k: nat)
    requires |g| == CELLS && col < GRID_SIZE && k < |Runes(Column(g, col))|
    ensures AfterGravity(g, rand, id0, d0)[Index(col, Missing(g, col) + k)].rune == Some(Runes(Column(g, col))[k])
  {
    var m := Missing(g, col);
    ColumnAfter(g, rand, id0, d0, col);
    FinalColumnParts(g, rand, id0, d0, col);
    assert Column(AfterGravity(g, rand, id0, d0), col)[m + k] == Some(FinalColumn(g, rand, id0, d0, col)[m + k]);
  }

  /**
   * Read top to bottom, a column after gravity holds the new runes and then
   * the runes it held before, in their original order: runes only fall, they
   * never pass one another, and the column has no gap left.
   */
  lemma ColumnSettles(g: GridState, rand: nat -> Unit, id0: nat, d0: nat, col: nat)
    requires |g| == CELLS && col < GRID_SIZE
    ensures var n := Offset(g, col);
      Runes(Column(AfterGravity(g, rand, id0, d0), col)) ==
        Spawned(rand, id0 + n, d0 + n, Missing(g, col)) + Runes(Column(g, col))
    ensures forall k :: 0 <= k < |Runes(Column(g, col))| ==>
      AfterGravity(g, rand, id0, d0)[Index(col, Missing(g, col) + k)].rune == Some(Runes(Column(g, col))[k])
  {
    ColumnRunesAfter(g, rand, id0, d0, col);
    FinalColumnParts(g, rand, id0, d0, col);
    forall k | 0 <= k < |Runes(Column(g, col))|
      ensures AfterGravity(g, rand, id0, d0)[Index(col, Missing(g, col) + k)].rune == Some(Runes(Column(g, col))[k])
    {
      OldRunesAtBottom(g, rand, id0, d0, col, k);
    }
  }

  /** The runes a gravity step creates: level 1, flagged new, with the ids `id0 .. id0+spawned-1`. */
  lemma NewRunesAreFresh(g: GridState, rand: nat -> Unit, id0: nat, d0: nat, col: nat, row: nat)
    requires |g| == CELLS && col < GRID_SIZE && row < Missing(g, col)
    ensures var r := AfterGravity(g, rand, id0, d0)[Index(col, row)].rune.value;
      r.level == Drop && r.isNew && !r.justMerged &&
      id0 + Offset(g, col) <= r.id < id0 + Offset(g, col + 1) <= id0 + Offset(g, GRID_SIZE)
  {
    ColumnAfter(g, rand, id0, d0, col);
    CoordinatesOfIndex(col, row);
    OffsetMonotone(g, col + 1, GRID_SIZE);
  }

  /**
   * Where the rune of cell `i` comes from after gravity: above the old runes,
   * a new rune with the next id of its column's block; otherwise the old rune
   * of the same column that fell there.
   */
  lemma SettledRuneOrigin(g: GridState, rand: nat -> Unit, id0: nat, d0: nat, i: nat)
    requires |g| == CELLS && i < CELLS
    ensures var r := AfterGravity(g, rand, id0, d0)[i].rune.value; var m := Missing(g, X(i));
      Y(i) < GRID_SIZE &&
      (Y(i) < m ==> r.id == id0 + Offset(g, X(i)) + Y(i)) &&
      (Y(i) >= m ==>
        r == Runes(Column(g, X(i)))[Y(i) - m] &&
        exists row :: 0 <= row < GRID_SIZE && g[Index(X(i), row)].rune == Some(r))
  {
    IndexOfCoordinates(i);
    var m := Missing(g, X(i));
    if Y(i) >= m {
      RunesFromCells(Column(g, X(i)), Y(i) - m);
    }
  }

  /**
   * Gravity keeps rune ids unique: the old runes keep theirs, and the new
   * runes take ids from the counter, above every id already on the board.
   */
  lemma GravityKeepsIdsFresh(g: GridState, rand: nat -> Unit, id0: nat, d0: nat)
    requires |g| == CELLS && FreshIds(g, id0)
    ensures FreshIds(AfterGravity(g, rand, id0, d0), id0 + Offset(g, GRID_SIZE))
  {
    var h := AfterGravity(g, rand, id0, d0);
    forall i | 0 <= i < CELLS
      ensures h[i].rune.value.id < id0 + Offset(g, GRID_SIZE)
    {
      SettledRuneOrigin(g, rand, id0, d0, i);
      OffsetMonotone(g, X(i) + 1, GRID_SIZE);
    }
    forall i, j | 0 <= i < CELLS && 0 <= j < CELLS && i != j
      ensures h[i].rune.value.id != h[j].rune.value.id
    {
      SettledIdsDiffer(g, rand, id0, d0, i, j);
    }
  }

  /** Two different cells hold runes with different ids after gravity. */
  lemma SettledIdsDiffer(g: GridState, rand: nat -> Unit, id0: nat, d0: nat, i: nat, j: nat)
    requires |g| == CELLS && FreshIds(g, id0) && i < CELLS && j < CELLS && i != j
    ensures AfterGravity(g, rand, id0, d0)[i].rune.value.id != AfterGravity(g, rand, id0, d0)[j].rune.value.id
  {
    IndexOfCoordinates(i);
    IndexOfCoordinates(j);
    var newI, newJ := Y(i) < Missing(g, X(i)), Y(j) < Missing(g, X(j));
    if newI && newJ {
      SettledNewIdsDiffer(g, rand, id0, d0, i, j);
    } else if !newI && !newJ {
      SettledOldIdsDiffer(g, rand, id0, d0, i, j);
    } else if !newI {
      SettledOldBelowNew(g, rand, id0, d0, i, j);
    } else {
      SettledOldBelowNew(g, rand, id0, d0, j, i);
    }
  }

  /** Two new runes that gravity placed at different cells have different ids. */
  lemma SettledNewIdsDiffer(g: GridState, rand: nat -> Unit, id0: nat, d0: nat, i: nat, j: nat)
    requires |g| == CELLS && i < CELLS && j < CELLS && i != j
    requires Y(i) < Missing(g, X(i)) && Y(j) < Missing(g, X(j))
    ensures AfterGravity(g, rand, id0, d0)[i].rune.value.id != AfterGravity(g, rand, id0, d0)[j].rune.value.id
  {
    IndexOfCoordinates(i);
    IndexOfCoordinates(j);
    SettledRuneOrigin(g, rand, id0, d0, i);
    SettledRuneOrigin(g, rand, id0, d0, j);
    NewIdsDiffer(g, X(i), Y(i), X(j), Y(j));
  }

  /** Two old runes that gravity moved to different cells keep different ids. */
  lemma SettledOldIdsDiffer(g: GridState, rand: nat -> Unit, id0: nat, d0: nat, i: nat, j: nat)
    requires |g| == CELLS && FreshIds(g, id0) && i < CELLS && j < CELLS && i != j
    requires Y(i) >= Missing(g, X(i)) && Y(j) >= Missing(g, X(j))
    ensures AfterGravity(g, rand, id0, d0)[i].rune.value.id != AfterGravity(g, rand, id0, d0)[j].rune.value.id
  {
    if X(i) == X(j) {
      SettledOldIdsDifferInColumn(g, rand, id0, d0, i, j);
    } else {
      var h := AfterGravity(g, rand, id0, d0);
      SettledRuneOrigin(g, rand, id0, d0, i);
      SettledRuneOrigin(g, rand, id0, d0, j);
      OldRunesApart(g, id0, X(i), h[i].rune.value, X(j), h[j].rune.value);
    }
  }

  /** Two old runes that gravity moved to different cells of one column keep different ids. */
  lemma SettledOldIdsDifferInColumn(g: GridState, rand: nat -> Unit, id0: nat, d0: nat, i: nat, j: nat)
    requires |g| == CELLS && FreshIds(g, id0) && i < CELLS && j < CELLS && i != j && X(i) == X(j)
    requires Y(i) >= Missing(g, X(i)) && Y(j) >= Missing(g, X(j))
    ensures AfterGravity(g, rand, id0, d0)[i].rune.value.id != AfterGravity(g, rand, id0, d0)[j].rune.value.id
  {
    IndexOfCoordinates(i);
    IndexOfCoordinates(j);
    SettledRuneOrigin(g, rand, id0, d0, i);
    SettledRuneOrigin(g, rand, id0, d0, j);
    OldRunesDiffer(g, id0, X(i), Y(i) - Missing(g, X(i)), Y(j) - Missing(g, X(j)));
  }

  /** An old rune that gravity moved has an id below every new rune's. */
  lemma SettledOldBelowNew(g: GridState, rand: nat -> Unit, id0: nat, d0: nat, i: nat, j: nat)
    requires |g| == CELLS && FreshIds(g, id0) && i < CELLS && j < CELLS
    requires Y(i) >= Missing(g, X(i)) && Y(j) < Missing(g, X(j))
    ensures AfterGravity(g, rand, id0, d0)[i].rune.value.id < AfterGravity(g, rand, id0, d0)[j].rune.value.id
  {
    var h := AfterGravity(g, rand, id0, d0);
    IndexOfCoordinates(i);
    SettledRuneOrigin(g, rand, id0, d0, i);
    SettledRuneOrigin(g, rand, id0, d0, j);
    OldRuneIsOld(g, id0, X(i), h[i].rune.value);
  }

  /** Old runes found in two different columns carry different ids. */
  lemma OldRunesApart(g: GridState, id0: nat, ci: nat, ri: Rune, cj: nat, rj: Rune)
    requires |g| == CELLS && FreshIds(g, id0) && ci < GRID_SIZE && cj < GRID_SIZE && ci != cj
    requires exists row :: 0 <= row < GRID_SIZE && g[Index(ci, row)].rune == Some(ri)
    requires exists row :: 0 <= row < GRID_SIZE && g[Index(cj, row)].rune == Some(rj)
    ensures ri.id != rj.id
  {
    var a :| 0 <= a < GRID_SIZE && g[Index(ci, a)].rune == Some(ri);
    var b :| 0 <= b < GRID_SIZE && g[Index(cj, b)].rune == Some(rj);
    CellsOfColumnsDiffer(ci, a, cj, b);
  }

  /** A rune found on the board has an id below the counter, so no new rune shares it. */
  lemma OldRuneIsOld(g: GridState, id0: nat, col: nat, r: Rune)
    requires |g| == CELLS && FreshIds(g, id0) && col < GRID_SIZE
    requires exists row :: 0 <= row < GRID_SIZE && g[Index(col, row)].rune == Some(r)
    ensures r.id < id0
  {
    var a :| 0 <= a < GRID_SIZE && g[Index(col, a)].rune == Some(r);
    IndexInBoard(col, a);
  }

  /** New runes of two different cells take different ids: the columns' blocks do not overlap. */
  lemma NewIdsDiffer(g: GridState, ci: nat, yi: nat, cj: nat, yj: nat)
    requires |g| == CELLS && ci < GRID_SIZE && cj < GRID_SIZE
    requires yi < Missing(g, ci) && yj < Missing(g, cj) && (ci, yi) != (cj, yj)
    ensures Offset(g, ci) + yi != Offset(g, cj) + yj
  {
    if ci < cj {
      NewIdsOrdered(g, ci, yi, cj, yj);
    } else if cj < ci {
      NewIdsOrdered(g, cj, yj, ci, yi);
    }
  }

  /** A new rune of a column left of another's takes a smaller id. */
  lemma NewIdsOrdered(g: GridState, ci: nat, yi: nat, cj: nat, yj: nat)
    requires |g| == CELLS && ci < cj < GRID_SIZE && yi < Missing(g, ci)
    ensures Offset(g, ci) + yi < Offset(g, cj) + yj
  {
    assert Offset(g, ci + 1) == Offset(g, ci) + Missing(g, ci);
    OffsetMonotone(g, ci + 1, cj);
  }

  /** The old runes of one column carry different ids. */
  lemma OldRunesDiffer(g: GridState, next: nat, col: nat, a: nat, b: nat)
    requires |g| == CELLS && FreshIds(g, next) && col < GRID_SIZE
    requires a < |Runes(Column(g, col))| && b < |Runes(Column(g, col))| && a != b
    ensures Runes(Column(g, col))[a].id != Runes(Column(g, col))[b].id
  {
    var s := Column(g, col);
    assert FreshContents(s, next) by {
      forall p, q | 0 <= p < GRID_SIZE && 0 <= q < GRID_SIZE && p != q
        ensures Index(col, p) != Index(col, q)
      {
      }
      forall p | 0 <= p < GRID_SIZE
        ensures Index(col, p) < CELLS
      {
        IndexInBoard(col, p);
      }
    }
    RunesFresh(s, next);
  }

  /** Cells in two different columns are different cells of the board. */
  lemma CellsOfColumnsDiffer(ci: nat, a: nat, cj: nat, b: nat)
    requires ci < GRID_SIZE && cj < GRID_SIZE && ci != cj && a < GRID_SIZE && b < GRID_SIZE
    ensures Index(ci, a) != Index(cj, b) && Index(ci, a) < CELLS && Index(cj, b) < CELLS
  {
    CoordinatesOfIndex(ci, a);
    CoordinatesOfIndex(cj, b);
    IndexInBoard(ci, a);
    IndexInBoard(cj, b);
  }

  /** The index of a cell in range lies on the board. */
  lemma IndexInBoard(x: nat, y: nat)
    requires x < GRID_SIZE && y < GRID_SIZE
    ensures Index(x, y) < CELLS
  {
  }

  lemma {:induction false} OffsetMonotone(g: GridState, a: nat, b: nat)
    requires |g| == CELLS && a <= b <= GRID_SIZE
    ensures Offset(g, a) <= Offset(g, b)
    decreases b
  {
    if a < b {
      OffsetMonotone(g, a, b - 1);
    }
  }

  /** On a board with no empty cell gravity changes nothing and creates no rune. */
  lemma FullBoardUnchanged(g: GridState, rand: nat -> Unit, id0: nat, d0: nat)
    requires |g| == CELLS && Full(g)
    ensures AfterGravity(g, rand, id0, d0) == g
    ensures Offset(g, GRID_SIZE) == 0
  {
    forall col | 0 <= col < GRID_SIZE ensures Missing(g, col) == 0 {
      RunesOfFull(Column(g, col));
    }
    NoneMissing(g, GRID_SIZE);
    var h := AfterGravity(g, rand, id0, d0);
    forall i | 0 <= i < CELLS ensures h[i] == g[i] {
      IndexOfCoordinates(i);
      RunesOfFull(Column(g, X(i)));
    }
  }

  lemma {:induction false} NoneMissing(g: GridState, col: nat)
    requires |g| == CELLS && col <= GRID_SIZE
    requires forall c :: 0 <= c < GRID_SIZE ==> Missing(g, c) == 0
    ensures Offset(g, col) == 0
  {
    if col > 0 {
      NoneMissing(g, col - 1);
    }
  }
}

=== FILE: grid.dfy ===
/** Board geometry: cell coordinates, orthogonal adjacency and the grid's shape. */
module Grid {
  import opened Types
  import opened Constants

  /** Column of cell `i` (row-major layout). */
  function X(i: nat): nat { i % GRID_SIZE }

  /** Row of cell `i`. */
  function Y(i: nat): nat { i / GRID_SIZE }

  /** Cell index of column `x`, row `y`. */
  function Index(x: nat, y: nat): nat { y * GRID_SIZE + x }

  lemma CoordinatesOfIndex(x: nat, y: nat)
    requires x < GRID_SIZE
    ensures X(Index(x, y)) == x && Y(Index(x, y)) == y
  {
  }

  lemma IndexOfCoordinates(i: nat)
    ensures Index(X(i), Y(i)) == i && X(i) < GRID_SIZE
    ensures i < CELLS ==> Y(i) < GRID_SIZE
  {
  }

  function Abs(n: int): nat { if n < 0 then -n else n }

  /** Two cells are orthogonal neighbours: their Manhattan distance is 1. */
  predicate IsAdjacent(a: nat, b: nat): (adj: bool)
    ensures adj ==> a != b && (X(a) == X(b) || Y(a) == Y(b))
  {
    Abs(X(a) - X(b)) + Abs(Y(a) - Y(b)) == 1
  }

  /**
   * Adjacency in terms of flat indices: the next cell in the same row,
   * or the cell directly below, in either order.
   */
  lemma {:induction false} AdjacentIndices(a: nat, b: nat)
    ensures IsAdjacent(a, b) <==>
      (b == a + 1 && X(a) < GRID_SIZE - 1) || (a == b + 1 && X(b) < GRID_SIZE - 1) ||
      b == a + GRID_SIZE || a == b + GRID_SIZE
  {
    IndexOfCoordinates(a);
    IndexOfCoordinates(b);
    if b == a + 1 && X(a) < GRID_SIZE - 1 {
      CoordinatesOfIndex(X(a) + 1, Y(a));
    }
    if a == b + 1 && X(b) < GRID_SIZE - 1 {
      CoordinatesOfIndex(X(b) + 1, Y(b));
    }
    if b == a + GRID_SIZE {
      CoordinatesOfIndex(X(a), Y(a) + 1);
    }
    if a == b + GRID_SIZE {
      CoordinatesOfIndex(X(b), Y(b) + 1);
    }
  }

  lemma AdjacentSymmetric(a: nat, b: nat)
    ensures IsAdjacent(a, b) <==> IsAdjacent(b, a)
  {
  }

  lemma AdjacentIrreflexive(a: nat)
    ensures !IsAdjacent(a, a)
  {
  }

  /** The rune in cell `i`, or `None` when `i` lies outside the grid. */
  function GetRune(g: GridState, i: int): (r: Option<Rune>)
    ensures 0 <= i < |g| ==> r == g[i].rune
    ensures !(0 <= i < |g|) ==> r == None
  {
    if i < 0 || i >= |g| then None else g[i].rune
  }

  /**
   * On a well-shaped board, reading the index of column `x`, row `y` gives the
   * rune of the cell positioned at (x, y); an index below the last row reads
   * as no rune.
   */
  lemma GetRuneAt(g: GridState, x: nat, y: nat)
    requires WellShaped(g) && x < GRID_SIZE
    ensures y < GRID_SIZE ==>
      Index(x, y) < |g| && g[Index(x, y)].x == x && g[Index(x, y)].y == y &&
      GetRune(g, Index(x, y)) == g[Index(x, y)].rune
    ensures y >= GRID_SIZE ==> GetRune(g, Index(x, y)) == None
  {
    CoordinatesOfIndex(x, y);
  }

  /** The runes of a sequence of cells' contents, empty cells skipped, order kept. */
  function Runes(s: seq<Option<Rune>>): (runes: seq<Rune>)
    ensures |runes| <= |s|
  {
    if s == [] then []
    else Runes(s[..|s| - 1]) + (if s[|s| - 1].Some? then [s[|s| - 1].value] else [])
  }

  /** Reading back a sequence of filled cells gives their runes. */
  lemma {:induction false} RunesOfSomes(c: seq<Option<Rune>>, f: seq<Rune>)
    requires |c| == |f| && forall k :: 0 <= k < |c| ==> c[k] == Some(f[k])
    ensures Runes(c) == f
  {
    if c != [] {
      var n := |c| - 1;
      RunesOfSomes(c[..n], f[..n]);
      assert f == f[..n] + [f[n]];
    }
  }

  /** With no empty cell, nothing is skipped. */
  lemma {:induction false} RunesOfFull(s: seq<Option<Rune>>)
    requires forall k :: 0 <= k < |s| ==> s[k].Some?
    ensures |Runes(s)| == |s|
    ensures forall k :: 0 <= k < |s| ==> Runes(s)[k] == s[k].value
  {
    if s != [] {
      RunesOfFull(s[..|s| - 1]);
    }
  }

  /** Every rune read off `s` is the rune of one of its cells. */
  lemma {:induction false} RunesFromCells(s: seq<Option<Rune>>, k: nat)
    requires k < |Runes(s)|
    ensures exists p :: 0 <= p < |s| && s[p] == Some(Runes(s)[k])
  {
    var m := |s| - 1;
    if k < |Runes(s[..m])| {
      RunesFromCells(s[..m], k);
      var p :| 0 <= p < m && s[..m][p] == Some(Runes(s[..m])[k]);
      assert s[p] == s[..m][p];
    } else {
      assert s[m] == Some(Runes(s)[k]);
    }
  }

  // ---------------------------------------------------------------------------
  // Rune identity. A rune's id is its React key and animation id, so the ids
  // on a board must be pairwise distinct; fresh ids come from a counter, so
  // every id in use lies below the counter's next value.

  /** The runes of `rs` carry pairwise distinct ids, all below `next`. */
  ghost predicate FreshRunes(rs: seq<Rune>, next: nat) {
    (forall k :: 0 <= k < |rs| ==> rs[k].id < next) &&
    (forall k, l :: 0 <= k < |rs| && 0 <= l < |rs| && k != l ==> rs[k].id != rs[l].id)
  }

  /** The runes in the cells `s` carry pairwise distinct ids, all below `next`. */
  ghost predicate FreshContents(s: seq<Option<Rune>>, next: nat) {
    (forall k :: 0 <= k < |s| && s[k].Some? ==> s[k].value.id < next) &&
    (forall k, l :: 0 <= k < |s| && 0 <= l < |s| && k != l && s[k].Some? && s[l].Some? ==>
      s[k].value.id != s[l].value.id)
  }

  /** No two runes on the board share an id, and every id is below `next`. */
  ghost predicate FreshIds(g: GridState, next: nat) {
    (forall i :: 0 <= i < |g| && g[i].rune.Some? ==> g[i].rune.value.id < next) &&
    (forall i, j :: 0 <= i < |g| && 0 <= j < |g| && i != j && g[i].rune.Some? && g[j].rune.Some? ==>
      g[i].rune.value.id != g[j].rune.value.id)
  }

  /** Skipping the empty cells keeps the ids distinct and below the bound. */
  lemma {:induction false} RunesFresh(s: seq<Option<Rune>>, next: nat)
    requires FreshContents(s, next)
    ensures FreshRunes(Runes(s), next)
  {
    if s != [] {
      var m := |s| - 1;
      assert FreshContents(s[..m], next) by {
        assert forall k :: 0 <= k < m ==> s[..m][k] == s[k];
      }
      RunesFresh(s[..m], next);
      if s[m].Some? {
        var r := Runes(s[..m]);
        forall k | 0 <= k < |r|
          ensures r[k].id != s[m].value.id
        {
          RunesFromCells(s[..m], k);
          var p :| 0 <= p < m && s[..m][p] == Some(r[k]);
          assert s[p] == Some(r[k]);
        }
        assert Runes(s) == r + [s[m].value];
      }
    }
  }

  /** The contents of the cells of a board, in index order. */
  function Contents(g: GridState): (s: seq<Option<Rune>>)
    ensures |s| == |g| && forall i :: 0 <= i < |g| ==> s[i] == g[i].rune
  {
    seq(|g|, i requires 0 <= i < |g| => g[i].rune)
  }

  /** Every cell knows its own index and coordinates. */
  ghost predicate Positioned(g: GridState) {
    forall i :: 0 <= i < |g| ==> g[i].id == i && g[i].x == X(i) && g[i].y == Y(i)
  }

  /** A well-shaped board: 36 cells, each at its own position. */
  ghost predicate WellShaped(g: GridState) {
    |g| == CELLS && Positioned(g)
  }

  /** No cell is empty. */
  ghost predicate Full(g: GridState) {
    forall i :: 0 <= i < |g| ==> g[i].rune.Some?
  }

  /** Only the runes differ: ids, coordinates and deletion marks agree cell by cell. */
  ghost predicate SameCells(g: GridState, h: GridState) {
    |g| == |h| &&
    forall i :: 0 <= i < |g| ==>
      h[i].id == g[i].id && h[i].x == g[i].x && h[i].y == g[i].y && h[i].isDeleted == g[i].isDeleted
  }

  lemma SameCellsTransitive(f: GridState, g: GridState, h: GridState)
    requires SameCells(f, g) && SameCells(g, h)
    ensures SameCells(f, h)
  {
  }

  lemma SameCellsKeepShape(g: GridState, h: GridState)
    requires WellShaped(g) && SameCells(g, h)
    ensures WellShaped(h)
  {
  }
}

=== FILE: matching.dfy ===
/**
 * Match detection: a horizontal scan of every row, then a vertical scan of
 * every column, each reporting the maximal straight runs of at least three
 * runes of the same type and level. Runs that cross are reported separately;
 * no flood fill joins them.
 */
module Matching {
  import opened Types
  import opened Constants
  import opened Grid

  // ---------------------------------------------------------------------------
  // Scan lines

  /**
   * Cell at position `p` of a scan line: of row `line` for the horizontal
   * scan, of column `line` for the vertical scan.
   */
  function LineIndex(vertical: bool, line: nat, p: nat): nat {
    if vertical then Index(line, p) else Index(p, line)
  }

  function At(g: GridState, vertical: bool, line: nat, p: nat): Option<Rune> {
    GetRune(g, LineIndex(vertical, line, p))
  }

  /** The scan's continuation test: both cells hold runes of one type and level. */
  predicate Same(a: Option<Rune>, b: Option<Rune>) {
    a.Some? && b.Some? && SameValue(a.value, b.value)
  }

  /** Positions `s .. e-1` of the line all hold runes of the value at `s`. */
  ghost predicate Uniform(g: GridState, vertical: bool, line: nat, s: nat, e: nat) {
    s < e && At(g, vertical, line, s).Some? &&
    forall p :: s <= p < e ==>
      At(g, vertical, line, p).Some? && SameValue(At(g, vertical, line, p).value, At(g, vertical, line, s).value)
  }

  /** No run can continue across position `p`: a line end, or a cell that does not match the one before. */
  ghost predicate Boundary(g: GridState, vertical: bool, line: nat, p: nat) {
    p == 0 || p == GRID_SIZE || !Same(At(g, vertical, line, p - 1), At(g, vertical, line, p))
  }

  /**
   * Positions `s .. e-1` form a maximal run of at least three equal runes:
   * neither the cell before nor the cell after holds a rune of the same value.
   */
  ghost predicate IsMaximalRun(g: GridState, vertical: bool, line: nat, s: nat, e: nat) {
    line < GRID_SIZE && s + MIN_RUN <= e <= GRID_SIZE && Uniform(g, vertical, line, s, e) &&
    Boundary(g, vertical, line, s) && Boundary(g, vertical, line, e)
  }

  /** The cells of positions `s .. e-1` of a line. */
  function Positions(vertical: bool, line: nat, s: nat, e: nat): (idx: seq<nat>)
    requires s <= e
    ensures |idx| == e - s
    ensures forall k :: 0 <= k < e - s ==> idx[k] == LineIndex(vertical, line, s + k)
    decreases e - s
  {
    if s == e then [] else [LineIndex(vertical, line, s)] + Positions(vertical, line, s + 1, e)
  }

  /** The cluster that reports positions `s .. e-1` of a line. */
  function RunCluster(g: GridState, vertical: bool, line: nat, s: nat, e: nat): (c: Cluster)
    requires line < GRID_SIZE && s < e <= GRID_SIZE && At(g, vertical, line, s).Some?
    ensures |c.indices| == e - s
  {
    var r := At(g, vertical, line, s).value;
    Cluster(r.kind, r.level, Positions(vertical, line, s, e))
  }

  /** A run's cells are consecutive cells of its line, one apart in a row, six apart in a column. */
  lemma RunClusterCells(g: GridState, vertical: bool, line: nat, s: nat, e: nat)
    requires line < GRID_SIZE && s < e <= GRID_SIZE && At(g, vertical, line, s).Some?
    ensures var c := RunCluster(g, vertical, line, s, e);
      forall k :: 0 <= k < e - s ==>
        c.indices[k] == c.indices[0] + (if vertical then k * GRID_SIZE else k) &&
        c.indices[k] < CELLS && (if vertical then X(c.indices[k]) == line else Y(c.indices[k]) == line)
  {
    var c := RunCluster(g, vertical, line, s, e);
    forall k | 0 <= k < e - s
      ensures c.indices[k] < CELLS && (if vertical then X(c.indices[k]) == line else Y(c.indices[k]) == line)
    {
      if vertical { CoordinatesOfIndex(line, s + k); } else { CoordinatesOfIndex(s + k, line); }
    }
  }

  // ---------------------------------------------------------------------------
  // Reference definition: split each line into blocks of linked cells

  /** End (exclusive) of the stretch of equal runes that starts at `p`. */
  function BlockEnd(g: GridState, vertical: bool, line: nat, p: nat): (e: nat)
    requires p < GRID_SIZE
    ensures p < e <= GRID_SIZE
    decreases GRID_SIZE - p
  {
    if p + 1 < GRID_SIZE && Same(At(g, vertical, line, p), At(g, vertical, line, p + 1))
    then BlockEnd(g, vertical, line, p + 1)
    else p + 1
  }

  /** The clusters of the blocks from position `p` on that are at least three long. */
  function RunsFrom(g: GridState, vertical: bool, line: nat, p: nat): seq<Cluster>
    requires line < GRID_SIZE && p <= GRID_SIZE
    decreases GRID_SIZE - p
  {
    if p == GRID_SIZE then []
    else
      var e := BlockEnd(g, vertical, line, p);
      (if e - p >= MIN_RUN then [RunCluster(g, vertical, line, p, e)] else [])
        + RunsFrom(g, vertical, line, e)
  }

  /** The runs reported for one row or column. */
  function LineRuns(g: GridState, vertical: bool, line: nat): seq<Cluster>
    requires line < GRID_SIZE
  {
    RunsFrom(g, vertical, line, 0)
  }

  /** The runs of every row (or every column), one entry per line. */
  function PerLine(g: GridState, vertical: bool): (ss: seq<seq<Cluster>>)
    ensures |ss| == GRID_SIZE
  {
    seq(GRID_SIZE, line requires 0 <= line < GRID_SIZE => LineRuns(g, vertical, line))
  }

  /** The entries of `ss` one after the other. */
  function Flatten(ss: seq<seq<Cluster>>): seq<Cluster> {
    if ss == [] then [] else Flatten(ss[..|ss| - 1]) + ss[|ss| - 1]
  }

  /** Every row's runs, top to bottom, then every column's runs, left to right. */
  function AllRuns(g: GridState): seq<Cluster> {
    Flatten(PerLine(g, false)) + Flatten(PerLine(g, true))
  }

  // ---------------------------------------------------------------------------
  // The scan as the hook performs it

  /**
   * The scan's state before position `p`: the current sequence is empty and
   * the runs from `p` remain to be reported, or it holds the uniform stretch
   * `st .. p-1` that starts where no run can continue.
   */
  ghost predicate Scanning(g: GridState, vertical: bool, line: nat, p: nat, st: nat, current: seq<nat>) {
    line < GRID_SIZE && st <= p <= GRID_SIZE && Boundary(g, vertical, line, st) &&
    (|current| == 0 ==> st == p) &&
    (|current| > 0 ==>
      st < p && Uniform(g, vertical, line, st, p) && current == Positions(vertical, line, st, p))
  }

  /**
   * One row or column scan: grow the current sequence while the next rune
   * matches the last one, report the sequence when it breaks or the line ends
   * if it is at least three long.
   */
  method ScanLine(g: GridState, vertical: bool, line: nat) returns (runs: seq<Cluster>)
    requires line < GRID_SIZE
    ensures runs == LineRuns(g, vertical, line)
  {
    runs := [];
    var current: seq<nat> := [];
    ghost var st: nat := 0;
    ScanStart(g, vertical, line);
    for p := 0 to GRID_SIZE
      invariant Scanning(g, vertical, line, p, st, current)
      invariant runs + RunsFrom(g, vertical, line, st) == LineRuns(g, vertical, line)
    {
      current, runs, st := ScanCell(g, vertical, line, p, current, runs, st);
    }
    runs := EndLine(g, vertical, line, current, runs, st);
  }

  /** At the end of the line the sequence still open is reported if it is at least three long. */
  method EndLine(g: GridState, vertical: bool, line: nat, current: seq<nat>, runs: seq<Cluster>, ghost st: nat)
    returns (runs': seq<Cluster>)
    requires Scanning(g, vertical, line, GRID_SIZE, st, current)
    requires runs + RunsFrom(g, vertical, line, st) == LineRuns(g, vertical, line)
    ensures runs' == LineRuns(g, vertical, line)
  {
    EndOfLine(g, vertical, line, st, current, runs);
    runs' := runs;
    if |current| >= MIN_RUN {
      var r := GetRune(g, current[0]);
      runs' := runs + [Cluster(r.value.kind, r.value.level, current)];
    }
  }

  /** The scan's work at position `p`: extend the current sequence, or close it and start afresh. */
  method ScanCell(g: GridState, vertical: bool, line: nat, p: nat, current: seq<nat>, runs: seq<Cluster>, ghost st: nat)
    returns (current': seq<nat>, runs': seq<Cluster>, ghost st': nat)
    requires p < GRID_SIZE && Scanning(g, vertical, line, p, st, current)
    ensures Scanning(g, vertical, line, p + 1, st', current')
    ensures runs' + RunsFrom(g, vertical, line, st') == runs + RunsFrom(g, vertical, line, st)
  {
    var idx := LineIndex(vertical, line, p);
    var rune := GetRune(g, idx);
    runs' := runs;
    if |current| == 0 {
      current', st' := StartSequence(g, vertical, line, p);
    } else {
      var prevIdx := current[|current| - 1];
      LastOfRun(g, vertical, line, p, st, current);
      var prevRune := GetRune(g, prevIdx);
      if rune.Some? && prevRune.Some? && rune.value.kind == prevRune.value.kind
        && rune.value.level == prevRune.value.level
      {
        ExtendRun(g, vertical, line, st, current, p);
        current', st' := current + [idx], st;
      } else {
        assert prevRune == At(g, vertical, line, p - 1);
        BreakRun(g, vertical, line, p, st, current);
        if |current| >= MIN_RUN {
          var reported := [Cluster(prevRune.value.kind, prevRune.value.level, current)];
          runs' := runs + reported;
          AppendAssociative(runs, reported, RunsFrom(g, vertical, line, p));
        } else {
          assert RunsFrom(g, vertical, line, st) == RunsFrom(g, vertical, line, p);
        }
        current', st' := StartSequence(g, vertical, line, p);
      }
    }
  }

  /** Before the first cell nothing is open and every run of the line remains to be reported. */
  lemma ScanStart(g: GridState, vertical: bool, line: nat)
    requires line < GRID_SIZE
    ensures Scanning(g, vertical, line, 0, 0, [])
    ensures [] + RunsFrom(g, vertical, line, 0) == LineRuns(g, vertical, line)
  {
  }

  /** A fresh sequence at `p`: the cell alone if it holds a rune, else nothing. */
  method StartSequence(g: GridState, vertical: bool, line: nat, p: nat) returns (current': seq<nat>, ghost st': nat)
    requires line < GRID_SIZE && p < GRID_SIZE && Boundary(g, vertical, line, p)
    ensures Scanning(g, vertical, line, p + 1, st', current')
    ensures RunsFrom(g, vertical, line, st') == RunsFrom(g, vertical, line, p)
  {
    var idx := LineIndex(vertical, line, p);
    var rune := GetRune(g, idx);
    if rune.Some? {
      StartRun(g, vertical, line, p);
      current', st' := [idx], p;
    } else {
      SkipEmpty(g, vertical, line, p);
      current', st' := [], p + 1;
    }
  }

  /** The scans of all rows, top to bottom, or of all columns, left to right. */
  method ScanLines(g: GridState, vertical: bool) returns (clusters: seq<Cluster>)
    ensures clusters == Flatten(PerLine(g, vertical))
  {
    ghost var ss := PerLine(g, vertical);
    clusters := [];
    for line := 0 to GRID_SIZE
      invariant clusters == Flatten(ss[..line])
    {
      var runs := ScanLine(g, vertical, line);
      FlattenSnoc(ss, line);
      clusters := clusters + runs;
    }
    assert ss[..GRID_SIZE] == ss;
  }

  /**
   * All row scans, then all column scans; the clusters come out in that
   * order, each with its cells in ascending order.
   */
  method FindMatches(g: GridState) returns (clusters: seq<Cluster>)
    ensures clusters == AllRuns(g)
    ensures forall c :: c in clusters ==> WellFormed(g, c)
  {
    var horizontal := ScanLines(g, false);
    var vertical := ScanLines(g, true);
    clusters := horizontal + vertical;
    AllRunsSound(g);
  }

  // ---------------------------------------------------------------------------
  // Facts about blocks

  lemma {:induction false} SkipEmpty(g: GridState, vertical: bool, line: nat, p: nat)
    requires line < GRID_SIZE && p < GRID_SIZE && At(g, vertical, line, p).None?
    ensures RunsFrom(g, vertical, line, p) == RunsFrom(g, vertical, line, p + 1)
    ensures Boundary(g, vertical, line, p + 1)
  {
  }

  /** A block runs exactly to the end of a uniform stretch that cannot continue. */
  lemma {:induction false} BlockEndOfUniform(g: GridState, vertical: bool, line: nat, s: nat, e: nat)
    requires s < e <= GRID_SIZE && Uniform(g, vertical, line, s, e)
    requires Boundary(g, vertical, line, e)
    ensures BlockEnd(g, vertical, line, s) == e
    decreases e - s
  {
    if s + 1 < e {
      assert Same(At(g, vertical, line, s), At(g, vertical, line, s + 1));
      assert Uniform(g, vertical, line, s + 1, e);
      BlockEndOfUniform(g, vertical, line, s + 1, e);
    }
  }

  /**
   * Where a uniform stretch `st .. p-1` ends, the runs from `st` are the
   * stretch itself, reported with the value of its first rune when it is
   * long enough, followed by the runs from `p`.
   */
  lemma CloseRun(g: GridState, vertical: bool, line: nat, st: nat, p: nat)
    requires line < GRID_SIZE && st < p <= GRID_SIZE && Uniform(g, vertical, line, st, p)
    requires Boundary(g, vertical, line, p)
    ensures RunsFrom(g, vertical, line, st) ==
      (if p - st >= MIN_RUN
       then [Cluster(At(g, vertical, line, st).value.kind, At(g, vertical, line, st).value.level,
                     Positions(vertical, line, st, p))]
       else []) + RunsFrom(g, vertical, line, p)
  {
    BlockEndOfUniform(g, vertical, line, st, p);
  }

  /** The last cell of the current sequence is the one just before `p`, and it holds a rune. */
  lemma LastOfRun(g: GridState, vertical: bool, line: nat, p: nat, st: nat, current: seq<nat>)
    requires Scanning(g, vertical, line, p, st, current) && |current| > 0
    ensures current[|current| - 1] == LineIndex(vertical, line, p - 1)
    ensures GetRune(g, current[|current| - 1]).Some?
  {
    assert At(g, vertical, line, p - 1).Some?;
  }

  /** A new sequence starts on a rune where no run continues. */
  lemma StartRun(g: GridState, vertical: bool, line: nat, p: nat)
    requires line < GRID_SIZE && p < GRID_SIZE
    requires Boundary(g, vertical, line, p) && At(g, vertical, line, p).Some?
    ensures Scanning(g, vertical, line, p + 1, p, [LineIndex(vertical, line, p)])
  {
    assert Positions(vertical, line, p, p + 1) == [LineIndex(vertical, line, p)];
  }

  /**
   * When the rune at `p` does not continue the current sequence, the runs from
   * its start are the sequence itself, if long enough, then the runs from `p`.
   */
  lemma BreakRun(g: GridState, vertical: bool, line: nat, p: nat, st: nat, current: seq<nat>)
    requires p < GRID_SIZE && Scanning(g, vertical, line, p, st, current) && |current| > 0
    requires !Same(At(g, vertical, line, p - 1), At(g, vertical, line, p))
    ensures Boundary(g, vertical, line, p)
    ensures var prev := At(g, vertical, line, p - 1).value;
      RunsFrom(g, vertical, line, st) ==
        (if |current| >= MIN_RUN then [Cluster(prev.kind, prev.level, current)] else []) +
        RunsFrom(g, vertical, line, p)
  {
    CloseRun(g, vertical, line, st, p);
  }

  lemma AppendAssociative(a: seq<Cluster>, b: seq<Cluster>, c: seq<Cluster>)
    ensures a + (b + c) == (a + b) + c
  {
  }

  /** At the end of a line the current sequence, if long enough, is the last run left to report. */
  lemma EndOfLine(g: GridState, vertical: bool, line: nat, st: nat, current: seq<nat>, runs: seq<Cluster>)
    requires Scanning(g, vertical, line, GRID_SIZE, st, current)
    requires runs + RunsFrom(g, vertical, line, st) == LineRuns(g, vertical, line)
    ensures |current| > 0 ==> GetRune(g, current[0]).Some?
    ensures |current| >= MIN_RUN ==>
      runs + [Cluster(GetRune(g, current[0]).value.kind, GetRune(g, current[0]).value.level, current)]
        == LineRuns(g, vertical, line)
    ensures |current| < MIN_RUN ==> runs == LineRuns(g, vertical, line)
  {
    if |current| > 0 {
      CloseRun(g, vertical, line, st, GRID_SIZE);
      assert current[0] == LineIndex(vertical, line, st);
    }
    if |current| < MIN_RUN {
      assert RunsFrom(g, vertical, line, st) == [];
      assert runs + [] == runs;
    }
  }

  /** A uniform stretch grows by a cell that matches its last rune. */
  lemma ExtendRun(g: GridState, vertical: bool, line: nat, st: nat, current: seq<nat>, p: nat)
    requires p < GRID_SIZE && Scanning(g, vertical, line, p, st, current) && |current| > 0
    requires Same(At(g, vertical, line, p - 1), At(g, vertical, line, p))
    ensures Scanning(g, vertical, line, p + 1, st, current + [LineIndex(vertical, line, p)])
  {
    assert Positions(vertical, line, st, p + 1) == Positions(vertical, line, st, p) + [LineIndex(vertical, line, p)];
  }

  /** No run can continue past the end of a block. */
  lemma {:induction false} BlockEndIsBoundary(g: GridState, vertical: bool, line: nat, p: nat)
    requires p < GRID_SIZE
    ensures Boundary(g, vertical, line, BlockEnd(g, vertical, line, p))
    decreases GRID_SIZE - p
  {
    if p + 1 < GRID_SIZE && Same(At(g, vertical, line, p), At(g, vertical, line, p + 1)) {
      BlockEndIsBoundary(g, vertical, line, p + 1);
    }
  }

  /** Inside a block every cell continues the one before it. */
  lemma {:induction false} BlockEndLinked(g: GridState, vertical: bool, line: nat, p: nat)
    requires p < GRID_SIZE
    ensures forall q :: p < q < BlockEnd(g, vertical, line, p) ==> !Boundary(g, vertical, line, q)
    decreases GRID_SIZE - p
  {
    if p + 1 < GRID_SIZE && Same(At(g, vertical, line, p), At(g, vertical, line, p + 1)) {
      BlockEndLinked(g, vertical, line, p + 1);
    }
  }

  /** A block that starts on a rune holds runs of one value throughout. */
  lemma {:induction false} BlockEndUniform(g: GridState, vertical: bool, line: nat, p: nat)
    requires p < GRID_SIZE && At(g, vertical, line, p).Some?
    ensures Uniform(g, vertical, line, p, BlockEnd(g, vertical, line, p))
    decreases GRID_SIZE - p
  {
    if p + 1 < GRID_SIZE && Same(At(g, vertical, line, p), At(g, vertical, line, p + 1)) {
      var e := BlockEnd(g, vertical, line, p + 1);
      BlockEndUniform(g, vertical, line, p + 1);
      forall q | p < q < e
        ensures At(g, vertical, line, q).Some?
        ensures SameValue(At(g, vertical, line, q).value, At(g, vertical, line, p).value)
      {
        assert SameValue(At(g, vertical, line, q).value, At(g, vertical, line, p + 1).value);
      }
    }
  }

  // ---------------------------------------------------------------------------
  // Concatenating the lines

  lemma FlattenSnoc(ss: seq<seq<Cluster>>, n: nat)
    requires n < |ss|
    ensures Flatten(ss[..n + 1]) == Flatten(ss[..n]) + ss[n]
  {
    assert ss[..n + 1][..n] == ss[..n];
  }

  /** A cluster of the concatenation comes from one of the lines. */
  lemma {:induction false} InFlatten(ss: seq<seq<Cluster>>, c: Cluster) returns (line: nat)
    requires c in Flatten(ss)
    ensures line < |ss| && c in ss[line]
    decreases |ss|
  {
    var n := |ss| - 1;
    if c in ss[n] {
      line := n;
    } else {
      line := InFlatten(ss[..n], c);
      assert ss[..n][line] == ss[line];
    }
  }

  /** A cluster of one line is in the concatenation. */
  lemma {:induction false} FlattenContains(ss: seq<seq<Cluster>>, line: nat, c: Cluster)
    requires line < |ss| && c in ss[line]
    ensures c in Flatten(ss)
    decreases |ss|
  {
    var n := |ss| - 1;
    if line < n {
      assert ss[..n][line] == ss[line];
      FlattenContains(ss[..n], line, c);
    }
  }

  // ---------------------------------------------------------------------------
  // Soundness: every reported cluster is a maximal run

  /** Where a cluster lies: its orientation, its line and the positions it covers. */
  datatype Span = Span(vertical: bool, line: nat, start: nat, end: nat)

  /** Reads a cluster's span back from its first two cells. */
  function SpanOf(c: Cluster): Span {
    if |c.indices| < 2 then Span(false, 0, 0, 0)
    else
      var i0 := c.indices[0];
      if c.indices[1] == i0 + 1 then Span(false, Y(i0), X(i0), X(i0) + |c.indices|)
      else Span(true, X(i0), Y(i0), Y(i0) + |c.indices|)
  }

  lemma SpanOfRun(g: GridState, vertical: bool, line: nat, s: nat, e: nat)
    requires line < GRID_SIZE && s + 2 <= e <= GRID_SIZE && At(g, vertical, line, s).Some?
    ensures SpanOf(RunCluster(g, vertical, line, s, e)) == Span(vertical, line, s, e)
  {
    if vertical {
      CoordinatesOfIndex(line, s);
    } else {
      CoordinatesOfIndex(s, line);
    }
  }

  /** `c` reports a maximal run of a row or a column. */
  ghost predicate IsRunCluster(g: GridState, c: Cluster) {
    var sp := SpanOf(c);
    |c.indices| >= 2 && IsMaximalRun(g, sp.vertical, sp.line, sp.start, sp.end) &&
    c == RunCluster(g, sp.vertical, sp.line, sp.start, sp.end)
  }

  /** What the merge step relies on: at least three ascending cells, all holding the cluster's value. */
  ghost predicate WellFormed(g: GridState, c: Cluster) {
    |c.indices| >= MIN_RUN &&
    (forall k :: 0 <= k < |c.indices| ==>
      c.indices[k] < |g| && g[c.indices[k]].rune.Some? &&
      g[c.indices[k]].rune.value.kind == c.kind && g[c.indices[k]].rune.value.level == c.level) &&
    (forall i, j :: 0 <= i < j < |c.indices| ==> c.indices[i] < c.indices[j])
  }

  lemma RunClusterWellFormed(g: GridState, vertical: bool, line: nat, s: nat, e: nat)
    requires IsMaximalRun(g, vertical, line, s, e)
    ensures WellFormed(g, RunCluster(g, vertical, line, s, e))
  {
    var c := RunCluster(g, vertical, line, s, e);
    forall k | 0 <= k < |c.indices|
      ensures c.indices[k] < |g| && g[c.indices[k]].rune.Some?
      ensures g[c.indices[k]].rune.value.kind == c.kind && g[c.indices[k]].rune.value.level == c.level
    {
      assert At(g, vertical, line, s + k).Some?;
    }
  }

  lemma {:induction false} RunsFromSound(g: GridState, vertical: bool, line: nat, p: nat)
    requires line < GRID_SIZE && p <= GRID_SIZE && Boundary(g, vertical, line, p)
    ensures forall c :: c in RunsFrom(g, vertical, line, p) ==> IsRunCluster(g, c)
    decreases GRID_SIZE - p
  {
    if p < GRID_SIZE {
      var e := BlockEnd(g, vertical, line, p);
      BlockEndIsBoundary(g, vertical, line, p);
      if e - p >= MIN_RUN {
        assert At(g, vertical, line, p).Some?;
        BlockEndUniform(g, vertical, line, p);
        assert IsMaximalRun(g, vertical, line, p, e);
        SpanOfRun(g, vertical, line, p, e);
      }
      RunsFromSound(g, vertical, line, e);
    }
  }

  lemma PerLineSound(g: GridState, vertical: bool)
    ensures forall c :: c in Flatten(PerLine(g, vertical)) ==> IsRunCluster(g, c)
  {
    var ss := PerLine(g, vertical);
    forall c | c in Flatten(ss) ensures IsRunCluster(g, c) {
      var line := InFlatten(ss, c);
      RunsFromSound(g, vertical, line, 0);
    }
  }

  /**
   * Every reported cluster is a maximal straight run of at least three runes
   * of one type and level; so runs of one or two, and runs across an empty
   * cell, are never reported.
   */
  lemma AllRunsSound(g: GridState)
    ensures forall c :: c in AllRuns(g) ==> IsRunCluster(g, c) && WellFormed(g, c)
  {
    PerLineSound(g, false);
    PerLineSound(g, true);
    forall c | c in AllRuns(g) ensures WellFormed(g, c) {
      var sp := SpanOf(c);
      RunClusterWellFormed(g, sp.vertical, sp.line, sp.start, sp.end);
    }
  }

  // ---------------------------------------------------------------------------
  // Completeness: every maximal run is reported

  lemma {:induction false} RunsFromComplete(g: GridState, vertical: bool, line: nat, p: nat, s: nat, e: nat)
    requires line < GRID_SIZE && p <= s && Boundary(g, vertical, line, p)
    requires IsMaximalRun(g, vertical, line, s, e)
    ensures RunCluster(g, vertical, line, s, e) in RunsFrom(g, vertical, line, p)
    decreases GRID_SIZE - p
  {
    var b := BlockEnd(g, vertical, line, p);
    if s == p {
      BlockEndOfUniform(g, vertical, line, s, e);
    } else {
      BlockEndIsBoundary(g, vertical, line, p);
      BlockEndLinked(g, vertical, line, p);
      assert b <= s;
      RunsFromComplete(g, vertical, line, b, s, e);
    }
  }

  /** Every maximal run of three or more, including one that ends at the last column or row, is reported. */
  lemma AllRunsComplete(g: GridState, vertical: bool, line: nat, s: nat, e: nat)
    requires IsMaximalRun(g, vertical, line, s, e)
    ensures RunCluster(g, vertical, line, s, e) in AllRuns(g)
  {
    RunsFromComplete(g, vertical, line, 0, s, e);
    FlattenContains(PerLine(g, vertical), line, RunCluster(g, vertical, line, s, e));
  }

  // ---------------------------------------------------------------------------
  // Order: row runs first, each line's runs left to right; hence no repeats

  /** Scan rank of a cluster: row runs by (row, start), then column runs by (column, start). */
  function Rank(c: Cluster): nat {
    var sp := SpanOf(c);
    (if sp.vertical then CELLS else 0) + sp.line * GRID_SIZE + sp.start
  }

  ghost predicate Ascending(cs: seq<Cluster>) {
    forall i, j :: 0 <= i < j < |cs| ==> Rank(cs[i]) < Rank(cs[j])
  }

  ghost predicate RanksWithin(cs: seq<Cluster>, lo: nat, hi: nat) {
    forall i :: 0 <= i < |cs| ==> lo <= Rank(cs[i]) < hi
  }

  lemma {:induction false} AppendAscending(a: seq<Cluster>, b: seq<Cluster>, lo: nat, mid: nat, hi: nat)
    requires lo <= mid <= hi
    requires Ascending(a) && Ascending(b) && RanksWithin(a, lo, mid) && RanksWithin(b, mid, hi)
    ensures Ascending(a + b) && RanksWithin(a + b, lo, hi)
  {
    forall i | 0 <= i < |a + b| ensures lo <= Rank((a + b)[i]) < hi {
      if i < |a| {
        assert (a + b)[i] == a[i];
      } else {
        assert (a + b)[i] == b[i - |a|];
      }
    }
    forall i, j | 0 <= i < j < |a + b| ensures Rank((a + b)[i]) < Rank((a + b)[j]) {
      if j < |a| {
        assert (a + b)[i] == a[i] && (a + b)[j] == a[j];
      } else if i >= |a| {
        assert (a + b)[i] == b[i - |a|] && (a + b)[j] == b[j - |a|];
      } else {
        assert (a + b)[i] == a[i] && (a + b)[j] == b[j - |a|];
      }
    }
  }

  /** Lines whose runs are ordered and rank within their own line concatenate in order. */
  lemma {:induction false} FlattenAscending(ss: seq<seq<Cluster>>, base: nat)
    requires forall line :: 0 <= line < |ss| ==>
      Ascending(ss[line]) &&
      RanksWithin(ss[line], base + line * GRID_SIZE, base + line * GRID_SIZE + GRID_SIZE)
    ensures Ascending(Flatten(ss)) && RanksWithin(Flatten(ss), base, base + |ss| * GRID_SIZE)
    decreases |ss|
  {
    if ss != [] {
      var n := |ss| - 1;
      assert forall line :: 0 <= line < n ==> ss[..n][line] == ss[line];
      FlattenAscending(ss[..n], base);
      AppendAscending(Flatten(ss[..n]), ss[n], base, base + n * GRID_SIZE, base + |ss| * GRID_SIZE);
    }
  }

  lemma {:induction false} RunsFromAscending(g: GridState, vertical: bool, line: nat, p: nat)
    requires line < GRID_SIZE && p <= GRID_SIZE
    ensures var base := (if vertical then CELLS else 0) + line * GRID_SIZE;
      Ascending(RunsFrom(g, vertical, line, p)) &&
      RanksWithin(RunsFrom(g, vertical, line, p), base + p, base + GRID_SIZE)
    decreases GRID_SIZE - p
  {
    var base := (if vertical then CELLS else 0) + line * GRID_SIZE;
    if p < GRID_SIZE {
      var e := BlockEnd(g, vertical, line, p);
      RunsFromAscending(g, vertical, line, e);
      var head := if e - p >= MIN_RUN then [RunCluster(g, vertical, line, p, e)] else [];
      if e - p >= MIN_RUN {
        SpanOfRun(g, vertical, line, p, e);
      }
      AppendAscending(head, RunsFrom(g, vertical, line, e), base + p, base + e, base + GRID_SIZE);
    }
  }

  lemma PerLineAscending(g: GridState, vertical: bool)
    ensures var base := if vertical then CELLS else 0;
      Ascending(Flatten(PerLine(g, vertical))) &&
      RanksWithin(Flatten(PerLine(g, vertical)), base, base + CELLS)
  {
    var base := if vertical then CELLS else 0;
    var ss := PerLine(g, vertical);
    forall line | 0 <= line < |ss|
      ensures Ascending(ss[line])
      ensures RanksWithin(ss[line], base + line * GRID_SIZE, base + line * GRID_SIZE + GRID_SIZE)
    {
      assert ss[line] == RunsFrom(g, vertical, line, 0);
      RunsFromAscending(g, vertical, line, 0);
    }
    FlattenAscending(ss, base);
  }

  /** The clusters come out in scan order, so no cluster is reported twice. */
  lemma AllRunsAscending(g: GridState)
    ensures Ascending(AllRuns(g))
    ensures forall i, j :: 0 <= i < j < |AllRuns(g)| ==> AllRuns(g)[i] != AllRuns(g)[j]
  {
    PerLineAscending(g, false);
    PerLineAscending(g, true);
    AppendAscending(Flatten(PerLine(g, false)), Flatten(PerLine(g, true)), 0, CELLS, 2 * CELLS);
  }

  /** A row run and a column run through one cell are reported as two clusters. */
  lemma CrossingRunsSeparate(g: GridState, y: nat, sx: nat, ex: nat, x: nat, sy: nat, ey: nat)
    requires IsMaximalRun(g, false, y, sx, ex) && IsMaximalRun(g, true, x, sy, ey)
    ensures RunCluster(g, false, y, sx, ex) in AllRuns(g)
    ensures RunCluster(g, true, x, sy, ey) in AllRuns(g)
    ensures RunCluster(g, false, y, sx, ex) != RunCluster(g, true, x, sy, ey)
  {
    AllRunsComplete(g, false, y, sx, ex);
    AllRunsComplete(g, true, x, sy, ey);
    SpanOfRun(g, false, y, sx, ex);
    SpanOfRun(g, true, x, sy, ey);
  }

  // ---------------------------------------------------------------------------
  // Only the runes' values matter

  /** The value a cell shows to the matcher: its rune's type and level, if any. */
  function ValueOf(r: Option<Rune>): Option<(RuneType, RuneLevel)> {
    if r.Some? then Some((r.value.kind, r.value.level)) else None
  }

  ghost predicate SameValues(g: GridState, h: GridState) {
    |g| == |h| && forall i :: 0 <= i < |g| ==> ValueOf(g[i].rune) == ValueOf(h[i].rune)
  }

  lemma {:induction false} BlockEndByValue(g: GridState, h: GridState, vertical: bool, line: nat, p: nat)
    requires SameValues(g, h) && p < GRID_SIZE
    ensures BlockEnd(g, vertical, line, p) == BlockEnd(h, vertical, line, p)
    decreases GRID_SIZE - p
  {
    if p + 1 < GRID_SIZE {
      assert ValueOf(At(g, vertical, line, p)) == ValueOf(At(h, vertical, line, p));
      assert ValueOf(At(g, vertical, line, p + 1)) == ValueOf(At(h, vertical, line, p + 1));
      BlockEndByValue(g, h, vertical, line, p + 1);
    }
  }

  lemma {:induction false} RunsFromByValue(g: GridState, h: GridState, vertical: bool, line: nat, p: nat)
    requires SameValues(g, h) && line < GRID_SIZE && p <= GRID_SIZE
    ensures RunsFrom(g, vertical, line, p) == RunsFrom(h, vertical, line, p)
    decreases GRID_SIZE - p
  {
    if p < GRID_SIZE {
      BlockEndByValue(g, h, vertical, line, p);
      assert ValueOf(At(g, vertical, line, p)) == ValueOf(At(h, vertical, line, p));
      RunsFromByValue(g, h, vertical, line, BlockEnd(g, vertical, line, p));
    }
  }

  lemma PerLineByValue(g: GridState, h: GridState, vertical: bool)
    requires SameValues(g, h)
    ensures PerLine(g, vertical) == PerLine(h, vertical)
  {
    forall line | 0 <= line < GRID_SIZE
      ensures PerLine(g, vertical)[line] == PerLine(h, vertical)[line]
    {
      RunsFromByValue(g, h, vertical, line, 0);
    }
  }

  /** Match detection ignores rune identities and animation flags. */
  lemma AllRunsByValue(g: GridState, h: GridState)
    requires SameValues(g, h)
    ensures AllRuns(g) == AllRuns(h)
  {
    PerLineByValue(g, h, false);
    PerLineByValue(g, h, true);
  }
}

=== FILE: merging.dfy ===
/**
 * The merge step of board resolution. Every matched cluster collapses: its
 * two end cells are emptied and every cell between them is replaced by a
 * rune of the next level, and the player scores the cluster's base points
 * once per matched rune.
 */
module Merging {
  import opened Types
  import opened Constants
  import opened Grid

  /**
   * `Math.min(level + 1, Blade)`: the level a merge produces. It is one level
   * higher, except at the top level, which it keeps.
   */
  function NextLevel(level: RuneLevel): (next: RuneLevel)
    ensures level < Blade ==> next == level + 1
    ensures level == Blade ==> next == Blade
  {
    if level + 1 < Blade then level + 1 else Blade
  }

  /**
   * A cluster the merge step can process on a board of `size` cells: at least
   * one cell, all on the board, in strictly ascending order (the order the
   * numeric sort of its indices produces).
   */
  predicate Fits(c: Cluster, size: nat) {
    |c.indices| >= 1 && InRange(c.indices, size) && Increasing(c.indices)
  }

  /** Every index lies on a board of `size` cells. */
  predicate InRange(s: seq<nat>, size: nat) {
    forall k :: 0 <= k < |s| ==> s[k] < size
  }

  /** The indices are strictly ascending, hence distinct. */
  predicate Increasing(s: seq<nat>) {
    forall i, j :: 0 <= i < j < |s| ==> s[i] < s[j]
  }

  /** Every cluster of the round fits the board. */
  predicate AllFit(clusters: seq<Cluster>, size: nat) {
    forall n :: 0 <= n < |clusters| ==> Fits(clusters[n], size)
  }

  /** How many cells of the cluster are upgraded: all but the two ends (`slice(1, count - 1)`). */
  function MiddleCount(c: Cluster): nat {
    if |c.indices| < 2 then 0 else |c.indices| - 2
  }

  /** The rune an upgrade writes: fresh id, the cluster's type, the next level, flagged as just merged. */
  function Upgraded(id: nat, kind: RuneType, level: RuneLevel): Rune {
    Rune(id, kind, level, false, true)
  }

  /** Cell `i` given the rune `r`; a cell off the board (which no cluster names) is ignored. */
  function SetRune(g: GridState, i: nat, r: Option<Rune>): (h: GridState)
    ensures |h| == |g|
  {
    if i < |g| then g[i := g[i].(rune := r)] else g
  }

  /**
   * The board after the cluster's cells at positions `1 .. k-1` are upgraded
   * in order, the one at position `j` taking id `id + j - 1`.
   */
  function UpgradeUpTo(g: GridState, c: Cluster, k: nat, level: RuneLevel, id: nat): (h: GridState)
    requires k <= |c.indices|
    ensures |h| == |g|
  {
    if k <= 1 then g
    else SetRune(UpgradeUpTo(g, c, k - 1, level, id), c.indices[k - 1], Some(Upgraded(id + k - 2, c.kind, level)))
  }

  /**
   * One cluster merged: the middle cells upgraded, then both end cells
   * emptied. Only the runes of the cluster's own cells change.
   */
  function MergeCluster(g: GridState, c: Cluster, id: nat): (h: GridState)
    ensures SameCells(g, h)
    ensures forall i :: 0 <= i < |g| && i !in c.indices ==> h[i] == g[i]
  {
    if |c.indices| == 0 then g
    else
      var last := |c.indices| - 1;
      var upgraded := UpgradeUpTo(g, c, last, NextLevel(c.level), id);
      UpgradeUpToKeepsCells(g, c, last, NextLevel(c.level), id);
      SetRune(SetRune(upgraded, c.indices[0], None), c.indices[last], None)
  }

  /** How many fresh ids merging the clusters from the `n`-th on consumes: one per upgraded cell. */
  function UpgradesFrom(clusters: seq<Cluster>, n: nat): nat
    decreases |clusters| - n
  {
    if n >= |clusters| then 0 else MiddleCount(clusters[n]) + UpgradesFrom(clusters, n + 1)
  }

  /**
   * The clusters from the `n`-th on merged one after another, each into the
   * board the previous ones left; their upgrades take consecutive ids from `id`.
   */
  function MergeFrom(g: GridState, clusters: seq<Cluster>, n: nat, id: nat): (h: GridState)
    ensures |h| == |g|
    decreases |clusters| - n
  {
    if n >= |clusters| then g
    else MergeFrom(MergeCluster(g, clusters[n], id), clusters, n + 1, id + MiddleCount(clusters[n]))
  }

  /** A cluster's points: its level's base points once per matched rune. */
  function ClusterScore(c: Cluster): nat {
    ScoreTable(c.level) * |c.indices|
  }

  /** The points the clusters from the `n`-th on earn. */
  function ScoreFrom(clusters: seq<Cluster>, n: nat): nat
    decreases |clusters| - n
  {
    if n >= |clusters| then 0 else ClusterScore(clusters[n]) + ScoreFrom(clusters, n + 1)
  }

  // ---------------------------------------------------------------------------
  // The hook's merge loop

  /**
   * Processes every cluster in order on a copy of the board, adding up the
   * points and handing out one fresh id per upgraded cell from `id0` on.
   */
  method ProcessMerges(g: GridState, clusters: seq<Cluster>, id0: nat)
    returns (merged: GridState, gainedScore: nat, nextId: nat)
    requires AllFit(clusters, |g|)
    ensures merged == MergeFrom(g, clusters, 0, id0)
    ensures gainedScore == ScoreFrom(clusters, 0)
    ensures nextId == id0 + UpgradesFrom(clusters, 0)
  {
    var a := new Cell[|g|](i requires 0 <= i < |g| => g[i]);
    assert a[..] == g;
    gainedScore := 0;
    nextId := id0;
    for n := 0 to |clusters|
      invariant MergeFrom(a[..], clusters, n, nextId) == MergeFrom(g, clusters, 0, id0)
      invariant gainedScore + ScoreFrom(clusters, n) == ScoreFrom(clusters, 0)
      invariant nextId + UpgradesFrom(clusters, n) == id0 + UpgradesFrom(clusters, 0)
    {
      nextId := MergeStep(a, clusters, n, nextId);
      gainedScore := AddClusterScore(clusters, n, gainedScore);
    }
    merged := a[..];
  }

  /** One pass of the merge loop: cluster `n` merges into the board, using fresh ids from `nextId`. */
  method MergeStep(a: array<Cell>, clusters: seq<Cluster>, n: nat, nextId: nat) returns (nextId': nat)
    requires n < |clusters| && Fits(clusters[n], a.Length)
    modifies a
    ensures a[..] == MergeCluster(old(a[..]), clusters[n], nextId)
    ensures nextId' == nextId + MiddleCount(clusters[n])
    ensures MergeFrom(a[..], clusters, n + 1, nextId') == MergeFrom(old(a[..]), clusters, n, nextId)
    ensures nextId' + UpgradesFrom(clusters, n + 1) == nextId + UpgradesFrom(clusters, n)
  {
    var cluster := clusters[n];
    MergeOne(a, cluster, nextId);
    nextId' := nextId + MiddleCount(cluster);
  }

  /** The scoring half of a pass: the cluster's base points once per matched rune. */
  method AddClusterScore(clusters: seq<Cluster>, n: nat, gainedScore: nat) returns (gainedScore': nat)
    requires n < |clusters|
    ensures gainedScore' + ScoreFrom(clusters, n + 1) == gainedScore + ScoreFrom(clusters, n)
  {
    var cluster := clusters[n];
    var count := |cluster.indices|;
    var pointsPerItem := ScoreTable(cluster.level);
    var clusterScore := pointsPerItem * count;
    gainedScore' := gainedScore + clusterScore;
  }

  /** Merges one cluster in place: upgrade the middle cells in order, then empty both ends. */
  method MergeOne(a: array<Cell>, cluster: Cluster, id: nat)
    requires Fits(cluster, a.Length)
    modifies a
    ensures a[..] == MergeCluster(old(a[..]), cluster, id)
  {
    ghost var g := a[..];
    var count := |cluster.indices|;
    var nextLevel := NextLevel(cluster.level);
    var k := 1;
    while k + 1 < count
      invariant 1 <= k <= count && (count >= 2 ==> k <= count - 1)
      invariant a[..] == UpgradeUpTo(g, cluster, k, nextLevel, id)
    {
      var idx := cluster.indices[k];
      a[idx] := a[idx].(rune := Some(Upgraded(id + k - 1, cluster.kind, nextLevel)));
      k := k + 1;
    }
    var first := cluster.indices[0];
    var last := cluster.indices[count - 1];
    a[first] := a[first].(rune := None);
    a[last] := a[last].(rune := None);
  }

  // ---------------------------------------------------------------------------
  // Properties

  /** Upgrading only rewrites runes, and only those of the cluster's cells. */
  lemma {:induction false} UpgradeUpToKeepsCells(g: GridState, c: Cluster, k: nat, level: RuneLevel, id: nat)
    requires k <= |c.indices|
    ensures SameCells(g, UpgradeUpTo(g, c, k, level, id))
    ensures forall i :: 0 <= i < |g| && i !in c.indices ==> UpgradeUpTo(g, c, k, level, id)[i] == g[i]
  {
    if k > 1 {
      UpgradeUpToKeepsCells(g, c, k - 1, level, id);
    }
  }

  /** Upgrading distinct cells gives the one at position `j` the id `id + j - 1`. */
  lemma {:induction false} UpgradeUpToEffect(g: GridState, c: Cluster, k: nat, level: RuneLevel, id: nat)
    requires k <= |c.indices| && InRange(c.indices, |g|) && Increasing(c.indices)
    ensures forall j :: 1 <= j < k ==>
      UpgradeUpTo(g, c, k, level, id)[c.indices[j]] == g[c.indices[j]].(rune := Some(Upgraded(id + j - 1, c.kind, level)))
  {
    if k > 1 {
      UpgradeUpToEffect(g, c, k - 1, level, id);
      UpgradeUpToKeepsCells(g, c, k - 1, level, id);
    }
  }

  /**
   * The effect of merging one cluster on its own cells: both ends are
   * emptied, and the cell at position `k` strictly between them holds a rune
   * of the cluster's type at the next level with id `id + k - 1`.
   */
  lemma MergeClusterEffect(g: GridState, c: Cluster, id: nat)
    requires Fits(c, |g|)
    ensures var h := MergeCluster(g, c, id); var n := |c.indices|;
      h[c.indices[0]].rune == None && h[c.indices[n - 1]].rune == None &&
      forall k :: 0 < k < n - 1 ==>
        h[c.indices[k]].rune == Some(Upgraded(id + k - 1, c.kind, NextLevel(c.level)))
  {
    UpgradeUpToEffect(g, c, |c.indices| - 1, NextLevel(c.level), id);
  }

  /**
   * `h` differs from `g` only in runes, and each rune it changed was either
   * removed or replaced by a just-merged rune whose id lies in `lo .. hi-1`.
   */
  ghost predicate MergedFrom(g: GridState, h: GridState, lo: nat, hi: nat) {
    SameCells(g, h) && forall i :: 0 <= i < |g| ==> MergedCell(g[i], h[i], lo, hi)
  }

  /** Cell `b` is cell `a`, or `a` emptied, or `a` holding an upgrade with an id in `lo .. hi-1`. */
  ghost predicate MergedCell(a: Cell, b: Cell, lo: nat, hi: nat) {
    b == a || b.rune == None ||
    (b.rune.Some? && b.rune.value.justMerged && !b.rune.value.isNew && lo <= b.rune.value.id < hi)
  }

  /** Merging one cluster removes runes or writes upgrades with ids from `id` to `id + MiddleCount(c) - 1`. */
  lemma MergeClusterOutcome(g: GridState, c: Cluster, id: nat)
    requires Fits(c, |g|)
    ensures MergedFrom(g, MergeCluster(g, c, id), id, id + MiddleCount(c))
  {
    var h := MergeCluster(g, c, id);
    var n := |c.indices|;
    MergeClusterEffect(g, c, id);
    forall i | 0 <= i < |g| && i in c.indices
      ensures h[i].rune == None ||
        (h[i].rune.Some? && h[i].rune.value.justMerged && !h[i].rune.value.isNew &&
         id <= h[i].rune.value.id < id + MiddleCount(c))
    {
      var k :| 0 <= k < n && c.indices[k] == i;
      assert h[c.indices[k]] == h[i];
    }
  }

  /** Merging a whole round removes runes or writes upgrades with ids from `id` to `id + UpgradesFrom - 1`. */
  lemma MergeFromOutcome(g: GridState, clusters: seq<Cluster>, n: nat, id: nat)
    requires AllFit(clusters, |g|)
    ensures MergedFrom(g, MergeFrom(g, clusters, n, id), id, id + UpgradesFrom(clusters, n))
  {
    var h := MergeFrom(g, clusters, n, id);
    MergeFromKeepsCells(g, clusters, n, id);
    forall i | 0 <= i < |g|
      ensures MergedCell(g[i], h[i], id, id + UpgradesFrom(clusters, n))
    {
      MergeFromCell(g, clusters, n, id, i);
    }
  }

  /** A round of merges changes only runes. */
  lemma {:induction false} MergeFromKeepsCells(g: GridState, clusters: seq<Cluster>, n: nat, id: nat)
    ensures SameCells(g, MergeFrom(g, clusters, n, id))
    decreases |clusters| - n
  {
    if n < |clusters| {
      var g' := MergeCluster(g, clusters[n], id);
      MergeFromKeepsCells(g', clusters, n + 1, id + MiddleCount(clusters[n]));
      SameCellsTransitive(g, g', MergeFrom(g', clusters, n + 1, id + MiddleCount(clusters[n])));
    }
  }

  /**
   * One cell through a round of merges: kept, emptied, or holding an
   * upgrade whose id the round claimed.
   */
  lemma {:induction false} MergeFromCell(g: GridState, clusters: seq<Cluster>, n: nat, id: nat, i: nat)
    requires AllFit(clusters, |g|) && i < |g|
    ensures MergedCell(g[i], MergeFrom(g, clusters, n, id)[i], id, id + UpgradesFrom(clusters, n))
    decreases |clusters| - n
  {
    if n < |clusters| {
      var g' := MergeCluster(g, clusters[n], id);
      var id' := id + MiddleCount(clusters[n]);
      var h := MergeFrom(g', clusters, n + 1, id');
      MergeClusterCell(g, clusters[n], id, i);
      MergeFromCell(g', clusters, n + 1, id', i);
      MergedCellChain(g[i], g'[i], h[i], id, id', id' + UpgradesFrom(clusters, n + 1));
    }
  }

  /** One cell through one cluster's merge: kept, emptied, or holding one of its upgrades. */
  lemma MergeClusterCell(g: GridState, c: Cluster, id: nat, i: nat)
    requires Fits(c, |g|) && i < |g|
    ensures MergedCell(g[i], MergeCluster(g, c, id)[i], id, id + MiddleCount(c))
  {
    MergeClusterOutcome(g, c, id);
  }

  /** Two merges of a cell in a row, with consecutive id ranges, are one merge over the joined range. */
  lemma MergedCellChain(a: Cell, b: Cell, c: Cell, lo: nat, mid: nat, hi: nat)
    requires MergedCell(a, b, lo, mid) && MergedCell(b, c, mid, hi) && lo <= mid <= hi
    ensures MergedCell(a, c, lo, hi)
  {
  }

  /**
   * A cell that none of the clusters from the `n`-th on names comes through
   * the whole round exactly as it was.
   */
  lemma {:induction false} MergeFromKeepsUntouched(g: GridState, clusters: seq<Cluster>, n: nat, id: nat, i: nat)
    requires i < |g|
    requires forall j :: n <= j < |clusters| ==> i !in clusters[j].indices
    ensures MergeFrom(g, clusters, n, id)[i] == g[i]
    decreases |clusters| - n
  {
    if n < |clusters| {
      MergeFromKeepsUntouched(MergeCluster(g, clusters[n], id), clusters, n + 1, id + MiddleCount(clusters[n]), i);
    }
  }

  /**
   * Merging a cluster keeps rune ids unique: the upgrades take the next ids
   * of the counter, one per middle cell, above every id on the board.
   */
  lemma MergeClusterKeepsIdsFresh(g: GridState, c: Cluster, id: nat)
    requires Fits(c, |g|) && FreshIds(g, id)
    ensures FreshIds(MergeCluster(g, c, id), id + MiddleCount(c))
  {
    var h := MergeCluster(g, c, id);
    forall i | 0 <= i < |g| && h[i].rune.Some?
      ensures h[i].rune.value.id < id + MiddleCount(c)
    {
      MergedRuneId(g, c, id, i);
    }
    forall i, j | 0 <= i < |g| && 0 <= j < |g| && i != j && h[i].rune.Some? && h[j].rune.Some?
      ensures h[i].rune.value.id != h[j].rune.value.id
    {
      MergedRuneId(g, c, id, i);
      MergedRuneId(g, c, id, j);
    }
  }

  /**
   * The rune cell `i` holds after a merge: its old rune if the cluster does
   * not name it; otherwise none, or the upgrade with id `id + k - 1` written
   * at position `k` of the cluster.
   */
  lemma MergedRuneId(g: GridState, c: Cluster, id: nat, i: nat)
    requires Fits(c, |g|) && i < |g|
    ensures var h := MergeCluster(g, c, id);
      (i !in c.indices ==> h[i] == g[i]) &&
      (i in c.indices && h[i].rune.Some? ==>
        exists k :: 0 < k < |c.indices| - 1 && c.indices[k] == i && h[i].rune.value.id == id + k - 1)
  {
    MergeClusterEffect(g, c, id);
    if i in c.indices {
      var k :| 0 <= k < |c.indices| && c.indices[k] == i;
    }
  }

  /** A whole round of merges keeps rune ids unique, under the advanced counter. */
  lemma {:induction false} MergeFromKeepsIdsFresh(g: GridState, clusters: seq<Cluster>, n: nat, id: nat)
    requires AllFit(clusters, |g|) && FreshIds(g, id)
    ensures FreshIds(MergeFrom(g, clusters, n, id), id + UpgradesFrom(clusters, n))
    decreases |clusters| - n
  {
    if n < |clusters| {
      MergeClusterKeepsIdsFresh(g, clusters[n], id);
      MergeFromKeepsIdsFresh(MergeCluster(g, clusters[n], id), clusters, n + 1, id + MiddleCount(clusters[n]));
    }
  }

  /**
   * Every round with at least one match scores, at least three points per
   * cluster; a round without clusters scores nothing.
   */
  lemma {:induction false} ScoreBounds(clusters: seq<Cluster>, n: nat)
    requires forall m :: n <= m < |clusters| ==> |clusters[m].indices| >= MIN_RUN
    ensures ScoreFrom(clusters, n) >= MIN_RUN * (|clusters| - n)
    ensures ScoreFrom(clusters, n) > 0 <==> n < |clusters|
    decreases |clusters| - n
  {
    if n < |clusters| {
      ScoreBounds(clusters, n + 1);
    }
  }
}

=== FILE: shuffle.dfy ===
/**
 * Reshuffling the board: the runes on the board are collected, permuted by a
 * Fisher–Yates shuffle driven by the random oracle, topped up with fresh
 * runes should any cell have been empty, and laid back into the cells in
 * index order.
 */
module Shuffle {
  import opened Types
  import opened Constants
  import opened Grid
  import opened Spawn

  /** The sequence with the elements at `i` and `j` exchanged. */
  function Swap(s: seq<Rune>, i: nat, j: nat): (t: seq<Rune>)
    requires i < |s| && j < |s|
    ensures |t| == |s|
  {
    s[i := s[j]][j := s[i]]
  }

  /**
   * The Fisher–Yates passes for positions `i` down to 1: position `i` is
   * exchanged with a position drawn uniformly from `0 .. i` using draw `d`,
   * then the passes below it use the following draws.
   */
  function ShuffleDown(s: seq<Rune>, i: nat, rand: nat -> Unit, d: nat): (t: seq<Rune>)
    requires i < |s|
    ensures |t| == |s|
    decreases i
  {
    if i == 0 then s
    else ShuffleDown(Swap(s, i, Pick(rand(d), i + 1)), i - 1, rand, d + 1)
  }

  /** The whole shuffle of `s`, using draws `d0, d0+1, ...`. */
  function Shuffled(s: seq<Rune>, rand: nat -> Unit, d0: nat): (t: seq<Rune>)
    ensures |t| == |s|
  {
    if s == [] then s else ShuffleDown(s, |s| - 1, rand, d0)
  }

  /** How many draws shuffling `n` runes consumes: one per position above the first. */
  function ShuffleDraws(n: nat): nat {
    if n == 0 then 0 else n - 1
  }

  /** The runes on the board, in index order, empty cells skipped. */
  function BoardRunes(g: GridState): (runes: seq<Rune>)
    ensures |runes| <= |g|
  {
    Runes(Contents(g))
  }

  /** How many cells of the board are empty, hence how many runes a reshuffle spawns. */
  function Gaps(g: GridState): nat
    requires |g| == CELLS
  {
    CELLS - |BoardRunes(g)|
  }

  /**
   * The runes a reshuffle lays out: the shuffled board runes followed by one
   * fresh rune per empty cell (ids from `id0`, draws after the shuffle's).
   */
  function Laid(g: GridState, rand: nat -> Unit, id0: nat, d0: nat): (laid: seq<Rune>)
    requires |g| == CELLS
    ensures |laid| == CELLS
  {
    ShuffledAndFilled(BoardRunes(g), rand, id0, d0)
  }

  /** `runes` shuffled, then topped up with fresh runes to one per cell. */
  function ShuffledAndFilled(runes: seq<Rune>, rand: nat -> Unit, id0: nat, d0: nat): (laid: seq<Rune>)
    requires |runes| <= CELLS
    ensures |laid| == CELLS
  {
    Shuffled(runes, rand, d0) + Spawned(rand, id0, d0 + ShuffleDraws(|runes|), CELLS - |runes|)
  }

  /** Cell `i` of the board receives the `i`-th rune. */
  function LayOut(g: GridState, laid: seq<Rune>): (h: GridState)
    requires |laid| == |g|
    ensures |h| == |g| && forall i :: 0 <= i < |g| ==> h[i] == g[i].(rune := Some(laid[i]))
  {
    seq(|g|, i requires 0 <= i < |g| => g[i].(rune := Some(laid[i])))
  }

  /** The board after a reshuffle. */
  function Reshuffled(g: GridState, rand: nat -> Unit, id0: nat, d0: nat): (h: GridState)
    requires |g| == CELLS
    ensures |h| == CELLS
  {
    LayOut(g, Laid(g, rand, id0, d0))
  }

  // ---------------------------------------------------------------------------
  // The hook's reshuffle

  /**
   * Reshuffles a copy of the board. Returns the new board, the number of
   * draws taken from `d0` on and the number of fresh runes (ids from `id0`).
   */
  method ReshuffleBoard(g: GridState, rand: nat -> Unit, id0: nat, d0: nat)
    returns (h: GridState, draws: nat, spawned: nat)
    requires |g| == CELLS
    ensures h == Reshuffled(g, rand, id0, d0)
    ensures draws == ShuffleDraws(|BoardRunes(g)|) + spawned
    ensures spawned == Gaps(g)
  {
    var runes := BoardRunes(g);
    var a := new Rune[|runes|](k requires 0 <= k < |runes| => runes[k]);
    assert a[..] == runes;
    FisherYates(a, rand, d0);
    var currentRunes;
    currentRunes, spawned := FillGaps(a[..], rand, id0, d0 + ShuffleDraws(|runes|));
    draws := ShuffleDraws(|runes|) + spawned;
    assert currentRunes == Laid(g, rand, id0, d0);
    h := LayOut(g, currentRunes);
  }

  /** Appends fresh runes (ids from `id0`, draws from `d0`) until there is one per cell. */
  method FillGaps(shuffled: seq<Rune>, rand: nat -> Unit, id0: nat, d0: nat)
    returns (currentRunes: seq<Rune>, spawned: nat)
    requires |shuffled| <= CELLS
    ensures spawned == CELLS - |shuffled|
    ensures currentRunes == shuffled + Spawned(rand, id0, d0, spawned)
  {
    currentRunes := shuffled;
    spawned := 0;
    while |currentRunes| < CELLS
      invariant |currentRunes| <= CELLS
      invariant spawned == |currentRunes| - |shuffled|
      invariant currentRunes == shuffled + Spawned(rand, id0, d0, spawned)
      decreases CELLS - |currentRunes|
    {
      currentRunes := currentRunes + [GenerateRandomRune(id0 + spawned, rand(d0 + spawned))];
      SpawnedExtends(rand, id0, d0, spawned);
      spawned := spawned + 1;
    }
  }

  /** The Fisher–Yates loop, in place: `i` from the last position down to 1. */
  method FisherYates(a: array<Rune>, rand: nat -> Unit, d0: nat)
    modifies a
    ensures a[..] == Shuffled(old(a[..]), rand, d0)
  {
    if a.Length == 0 {
      return;
    }
    ghost var s := a[..];
    var i := a.Length - 1;
    var d := d0;
    while i > 0
      invariant 0 <= i < a.Length
      invariant ShuffleDown(a[..], i, rand, d) == Shuffled(s, rand, d0)
    {
      ShufflePass(a, i, rand, d);
      i := i - 1;
      d := d + 1;
    }
  }

  /** One pass of the loop: position `i` exchanged with a position drawn from `0 .. i`. */
  method ShufflePass(a: array<Rune>, i: nat, rand: nat -> Unit, d: nat)
    requires 0 < i < a.Length
    modifies a
    ensures a[..] == Swap(old(a[..]), i, Pick(rand(d), i + 1))
    ensures ShuffleDown(a[..], i - 1, rand, d + 1) == ShuffleDown(old(a[..]), i, rand, d)
  {
    var j := Pick(rand(d), i + 1);
    ShuffleStep(a[..], i, rand, d);
    a[i], a[j] := a[j], a[i];
    assert a[..] == Swap(old(a[..]), i, j);
  }

  // ---------------------------------------------------------------------------
  // Properties

  /** One pass of the shuffle, unfolded. */
  lemma ShuffleStep(s: seq<Rune>, i: nat, rand: nat -> Unit, d: nat)
    requires 0 < i < |s|
    ensures ShuffleDown(s, i, rand, d) == ShuffleDown(Swap(s, i, Pick(rand(d), i + 1)), i - 1, rand, d + 1)
  {
  }

  /** An exchange keeps the multiset of runes. */
  lemma SwapPermutes(s: seq<Rune>, i: nat, j: nat)
    requires i < |s| && j < |s|
    ensures multiset(Swap(s, i, j)) == multiset(s)
  {
  }

  /** The shuffle only permutes: every rune stays, as many times as before. */
  lemma {:induction false} ShuffleDownPermutes(s: seq<Rune>, i: nat, rand: nat -> Unit, d: nat)
    requires i < |s|
    ensures multiset(ShuffleDown(s, i, rand, d)) == multiset(s)
    decreases i
  {
    if i > 0 {
      var j := Pick(rand(d), i + 1);
      SwapPermutes(s, i, j);
      ShuffleDownPermutes(Swap(s, i, j), i - 1, rand, d + 1);
    }
  }

  lemma ShuffledPermutes(s: seq<Rune>, rand: nat -> Unit, d0: nat)
    ensures multiset(Shuffled(s, rand, d0)) == multiset(s)
  {
    if s != [] {
      ShuffleDownPermutes(s, |s| - 1, rand, d0);
    }
  }

  /** One more spawn appends one more rune. */
  lemma SpawnedExtends(rand: nat -> Unit, id0: nat, d0: nat, n: nat)
    ensures Spawned(rand, id0, d0, n + 1) == Spawned(rand, id0, d0, n) + [GenerateRandomRune(id0 + n, rand(d0 + n))]
  {
  }

  /** Reading the runes back off a reshuffled board gives the runes laid out, in order. */
  lemma ReshuffledRunes(g: GridState, rand: nat -> Unit, id0: nat, d0: nat)
    requires |g| == CELLS
    ensures var h := Reshuffled(g, rand, id0, d0);
      SameCells(g, h) && Full(h) && BoardRunes(h) == ShuffledAndFilled(BoardRunes(g), rand, id0, d0)
  {
    var h := Reshuffled(g, rand, id0, d0);
    RunesOfSomes(Contents(h), Laid(g, rand, id0, d0));
  }

  /** The runes laid out are the given runes, permuted, plus the fresh ones. */
  lemma LaidPermutes(runes: seq<Rune>, rand: nat -> Unit, id0: nat, d0: nat)
    requires |runes| <= CELLS
    ensures multiset(ShuffledAndFilled(runes, rand, id0, d0)) ==
      multiset(runes) + multiset(Spawned(rand, id0, d0 + ShuffleDraws(|runes|), CELLS - |runes|))
  {
    ShuffledPermutes(runes, rand, d0);
  }

  /** A full board has one rune per cell, so a reshuffle spawns nothing. */
  lemma FullBoardRunes(g: GridState)
    requires |g| == CELLS && Full(g)
    ensures |BoardRunes(g)| == CELLS
  {
    RunesOfFull(Contents(g));
  }

  /** An exchange keeps the ids distinct and below the bound. */
  lemma SwapKeepsFresh(s: seq<Rune>, i: nat, j: nat, next: nat)
    requires i < |s| && j < |s| && FreshRunes(s, next)
    ensures FreshRunes(Swap(s, i, j), next)
  {
    var t := Swap(s, i, j);
    forall k | 0 <= k < |t|
      ensures t[k] == s[if k == i then j else if k == j then i else k]
    {
    }
  }

  /** The shuffle keeps the ids distinct and below the bound. */
  lemma {:induction false} ShuffleDownKeepsFresh(s: seq<Rune>, i: nat, rand: nat -> Unit, d: nat, next: nat)
    requires i < |s| && FreshRunes(s, next)
    ensures FreshRunes(ShuffleDown(s, i, rand, d), next)
    decreases i
  {
    if i > 0 {
      var j := Pick(rand(d), i + 1);
      SwapKeepsFresh(s, i, j, next);
      ShuffleDownKeepsFresh(Swap(s, i, j), i - 1, rand, d + 1, next);
    }
  }

  /**
   * The runes laid out carry distinct ids: the shuffled runes keep theirs,
   * all below `id0`, and the fresh runes take `id0` on.
   */
  lemma LaidKeepsIdsFresh(runes: seq<Rune>, rand: nat -> Unit, id0: nat, d0: nat)
    requires |runes| <= CELLS && FreshRunes(runes, id0)
    ensures FreshRunes(ShuffledAndFilled(runes, rand, id0, d0), id0 + (CELLS - |runes|))
  {
    var shuffled := Shuffled(runes, rand, d0);
    if runes != [] {
      ShuffleDownKeepsFresh(runes, |runes| - 1, rand, d0, id0);
    }
    var spawned := Spawned(rand, id0, d0 + ShuffleDraws(|runes|), CELLS - |runes|);
    var laid := shuffled + spawned;
    forall k | |shuffled| <= k < |laid|
      ensures laid[k].id == id0 + (k - |shuffled|)
    {
      assert laid[k] == spawned[k - |shuffled|];
    }
  }

  /** A reshuffle keeps the board's rune ids unique, under the advanced counter. */
  lemma ReshuffleKeepsIdsFresh(g: GridState, rand: nat -> Unit, id0: nat, d0: nat)
    requires |g| == CELLS && FreshIds(g, id0)
    ensures FreshIds(Reshuffled(g, rand, id0, d0), id0 + Gaps(g))
  {
    assert FreshContents(Contents(g), id0);
    RunesFresh(Contents(g), id0);
    LaidKeepsIdsFresh(BoardRunes(g), rand, id0, d0);
  }

  /** On a full board a reshuffle spawns nothing: the runes are only permuted. */
  lemma ReshufflePermutesFullBoard(g: GridState, rand: nat -> Unit, id0: nat, d0: nat)
    requires |g| == CELLS && Full(g)
    ensures Gaps(g) == 0
    ensures multiset(ShuffledAndFilled(BoardRunes(g), rand, id0, d0)) == multiset(BoardRunes(g))
  {
    FullBoardRunes(g);
    LaidPermutes(BoardRunes(g), rand, id0, d0);
    assert Spawned(rand, id0, d0 + ShuffleDraws(|BoardRunes(g)|), 0) == [];
  }
}

=== FILE: spawn.dfy ===
/**
 * Rune generation. `Math.random()` is an oracle: a value in [0, 1) supplied
 * by the caller; `crypto.randomUUID()` is a fresh natural number.
 */
module Spawn {
  import opened Types
  import opened Constants
  import opened Grid

  /** A value `Math.random()` may return. */
  type Unit = r: real | 0.0 <= r < 1.0

  /** `Math.floor(r * n)`: a uniform choice among `0 .. n-1` for a random `r`. */
  function Pick(r: Unit, n: nat): (j: nat)
    requires n > 0
    ensures j < n
  {
    var m := n as real;
    assert 0.0 <= r * m < m by {
      assert m - r * m == (1.0 - r) * m;
      assert (1.0 - r) * m > 0.0;
    }
    (r * m).Floor
  }

  /** The choice is the integer part of `r * n`. */
  lemma PickIsFloor(r: Unit, n: nat)
    requires n > 0
    ensures Pick(r, n) as real <= r * n as real < Pick(r, n) as real + 1.0
  {
  }

  /**
   * A counter (the next fresh rune id, or the index of the next random draw)
   * after `k` of its values were taken.
   */
  function Advance(counter: nat, k: nat): nat {
    counter + k
  }

  /** A new level-1 rune of a randomly drawn type, flagged as just spawned. */
  function GenerateRandomRune(id: nat, r: Unit): (rune: Rune)
    ensures rune.id == id && rune.level == Drop && rune.kind in RUNE_TYPES
    ensures rune.isNew && !rune.justMerged
  {
    Rune(id, RUNE_TYPES[Pick(r, |RUNE_TYPES|)], Drop, true, false)
  }

  /** Every type of the pool is drawn for some value of the random source. */
  lemma EveryTypeDrawn(id: nat, k: nat)
    requires k < |RUNE_TYPES|
    ensures exists r: Unit :: GenerateRandomRune(id, r).kind == RUNE_TYPES[k]
  {
    var n := |RUNE_TYPES| as real;
    var r: Unit := k as real / n;
    assert r * n == k as real;
    assert Pick(r, |RUNE_TYPES|) == k;
    assert GenerateRandomRune(id, r).kind == RUNE_TYPES[k];
  }

  /** The `n` runes spawned with ids `id0, id0+1, ...` and random draws `d0, d0+1, ...`. */
  function Spawned(rand: nat -> Unit, id0: nat, d0: nat, n: nat): (runes: seq<Rune>)
    ensures |runes| == n
    ensures forall k :: 0 <= k < n ==> runes[k] == GenerateRandomRune(id0 + k, rand(d0 + k))
    ensures forall k :: 0 <= k < n ==>
      runes[k].id == id0 + k && runes[k].level == Drop && runes[k].isNew && !runes[k].justMerged
  {
    var runes := seq(n, k requires 0 <= k < n => GenerateRandomRune(id0 + k, rand(d0 + k)));
    assert forall k :: 0 <= k < n ==> runes[k] == GenerateRandomRune(id0 + k, rand(d0 + k));
    runes
  }

  /** A fresh board of 36 new level-1 runes, cell `i` at column `i mod 6`, row `i div 6`. */
  function CreateInitialGrid(rand: nat -> Unit, id0: nat, d0: nat): (g: GridState)
    ensures WellShaped(g) && Full(g)
    ensures forall i :: 0 <= i < |g| ==>
      g[i].rune.value.level == Drop && g[i].rune.value.isNew && !g[i].isDeleted
    ensures FreshIds(g, id0 + CELLS)
  {
    seq(CELLS, i requires 0 <= i < CELLS =>
      Cell(i, X(i), Y(i), Some(GenerateRandomRune(id0 + i, rand(d0 + i))), false))
  }
}

=== FILE: types.dfy ===
/** The board's data model: rune types and levels, runes, cells and the grid. */
module Types {

  /** JavaScript's `null` for an optional value. */
  datatype Option<+T> = None | Some(value: T)

  /** The five elements a rune can belong to. */
  datatype RuneType = Fire | Water | Wood | Earth | Lightning

  /** A rune's level; the enum's numeric values 1 to 5. */
  type RuneLevel = l: int | 1 <= l <= 5 witness 1

  const Drop: RuneLevel := 1
  const Gem: RuneLevel := 2
  const Crystal: RuneLevel := 3
  const Tome: RuneLevel := 4
  const Blade: RuneLevel := 5

  /**
   * A rune. The identifier stands for the random UUID token; `isNew` and
   * `justMerged` are the optional animation flags, an absent flag being `false`.
   */
  datatype Rune = Rune(id: nat, kind: RuneType, level: RuneLevel, isNew: bool, justMerged: bool)

  /** A board cell: its index, its coordinates, and its rune (`None` when empty). */
  datatype Cell = Cell(id: nat, x: nat, y: nat, rune: Option<Rune>, isDeleted: bool)

  /** The whole board, row by row. */
  type GridState = seq<Cell>

  /** A match reported by the scan: the runes' shared type and level and the run's cells in scan order. */
  datatype Cluster = Cluster(kind: RuneType, level: RuneLevel, indices: seq<nat>)

  /** Shortest run that counts as a match. */
  const MIN_RUN: nat := 3

  /** Two runes have the same value: same type and same level (identity and flags aside). */
  predicate SameValue(a: Rune, b: Rune) {
    a.kind == b.kind && a.level == b.level
  }
}
